=== FILE: README.md ===
# A verified model of the keuangan double-entry ledger

This project models the bookkeeping core of the Django app `keuangan` in Dafny. The app keeps a
double-entry ledger: users own accounts (Akun), record transactions (Transaksi), and each
transaction is written as postings (Jurnal) with a debit and a credit leg. From the postings the
app builds its reports: the general ledger (buku_besar), the trial balance (neraca_saldo), and the
financial statement (laporan_keuangan, with a reconstructed cash flow and two ratios). It also
shows dashboard figures and prints amounts through template filters.

Modules, in dependency order:

- `Wrappers`: the Option type.
- `Numerals`: decimal digits, `str(int)` and `int(str)` on ASCII digits.
- `Text`: case-insensitive comparison, `strip` over Python's whitespace set, substring search,
  character removal.
- `Models`: the three tables, `(user, kode)` uniqueness, and what each CASCADE rule deletes.
- `Queries`: the ORM filters and `Sum` aggregates the views use.
- `Engine`: `compute_account_totals_for_user`, the account classifier and balance routing.
- `Reports`: the routed report views `buku_besar`, `neraca_saldo` and `laporan_keuangan`.
- `LegacyReports`: the older `neraca_saldo` and `laporan_keuangan` in `views.py`. No URL routes to
  them any more.
- `Dashboard`: the dashboard's ledger figures.
- `Filters`: the `number_format`, `currency_format` and `format_decimal` template filters.
- `Resolve`: the API's `resolve_akun_local`.
- `Ledger`: a class holding the three tables, with one method per mutating view:
  `input_transaksi`, the API's create, update and delete, and `hapus_akun`.

Amounts are `DecimalField(12, 2)` values. They are held exactly as integer cents. Primary keys are
naturals. The next keys the database hands out are two counters on the ledger. A query with no
`order_by` returns rows in table order, and the account table is kept in increasing key order, so
`.first()` is the first match in sequence order.

The main results:

- **Routing.** `compute_account_totals_for_user` sends each account's non-zero balance to exactly
  one of five totals, and always to the same one. The five totals are non-negative and together
  equal the sum of the absolute balances.
- **The accounting equation.** For every user and every ledger, total_aktiva minus the
  statement's equation_right (kewajiban + modal + net income) is exactly
  total_debit − total_kredit. The same holds for neraca_saldo's rhs_total.
- **The invariant.** Every mutating view keeps a ledger invariant. Keys are unique and
  increasing. `(user, kode)` is unique. Every posting refers to an existing row. A posting's
  account belongs to the owner of its transaction. Every transaction's postings balance.
- **Balanced reports.** Under that invariant, every user's postings balance. So the dashboard
  always shows `is_balanced` with selisih 0, the trial-balance columns agree, and total_aktiva
  equals equation_right.
- **The dashboard.** Its totals are the engine's grand totals.
- **The filters.** Each prints a sign and then digit groups of three separated by `.`. Removing
  the dots and reading the result back gives the number that was formatted.
- **The resolver.** It only returns the requesting user's accounts. An owned key, or an account's
  own display string `kode - nama`, resolves to that account.

An account type outside the known labels is credit-normal. The code
(`keuangan/views_laporan.py:49-53`) treats every label outside the asset family and 'Beban' as
credit-normal. An unknown label with a credit balance is therefore added to kewajiban,
and one with a debit balance to aktiva. `Engine.NormalSideOf` and `Engine.Destination` state the
code's rule.

The routing keeps the source's branch tree. Two of its default branches
(`keuangan/views_laporan.py:64-66` and `73-74`) are proved unreachable: only asset labels and
'Beban' are debit-normal.

Three behaviours of the source are modelled as written:

- The HTML form does not check the sign of `jumlah`. A negative amount is saved, and its two legs
  still balance.
- The API stores its description without stripping it.
- `laporan_keuangan` lists four asset labels under aktiva (`Reports.LaporanKeuangan`). The
  corrected statement, with all five, is `Reports.LaporanKeuanganCorrected` (see Findings).

## Model

| member | source | states |
|---|---|---|
| Models.JurnalsNotOfTransaksi | keuangan/models.py:42 | a posting survives the CASCADE from deleting transaction tid exactly when it was there and refers to another transaction |
| Models.JurnalsNotOfAkun | keuangan/models.py:43 | a posting survives the CASCADE from deleting account aid exactly when it was there and refers to another account |
| Models.AkunsWithoutKeepsKeys | keuangan/models.py:27-28 | removing an account keeps the keys increasing and `(user, kode)` unique |
| Models.JurnalsNotOfAkunUnused | keuangan/models.py:43 | deleting an account that no posting refers to cascades to no posting |
| Models.DeleteTransaksiKeepsReferences | keuangan/models.py:41-43 | after deleting a transaction, every remaining posting still refers to an existing transaction and account, and none refers to the deleted one |
| Models.DeleteAkunKeepsReferences | keuangan/models.py:41-43 | after deleting an account, every remaining posting still refers to existing rows, and none to the deleted account |
| Models.DeleteUserCascades | keuangan/models.py:21-43 | deleting a user removes exactly that user's accounts and transactions, keeps everyone else's, and leaves no dangling posting |
| Queries.OfAkun | keuangan/views_laporan.py:34 | `Jurnal.objects.filter(akun=...)`: a posting is selected exactly when it is on that account |
| Queries.OfAkunCounts | keuangan/views_laporan.py:34 | `filter(akun=...)` returns each posting on the account as many times as the table holds it (once, under unique keys) and no other, so its `Sum` and `.count()` are fixed |
| Queries.OfAkunAppend | keuangan/views_laporan.py:34 | `filter(akun=...)` keeps table order: filtering a concatenation is the concatenation of the filtered parts |
| Queries.OfAkunInCounts | keuangan/views.py:73 | `filter(akun__user=...)` returns each posting on the user's accounts as many times as the table holds it, and no other |
| Queries.OfTransaksi | keuangan/views.py:717 | `Jurnal.objects.filter(transaksi=...)`: a posting is selected exactly when it belongs to that transaction |
| Queries.AkunsOf | keuangan/views_laporan.py:17 | `Akun.objects.filter(user=user)`: an account is listed exactly when it belongs to the user |
| Queries.UserAkunIdsAreAkunsOf | keuangan/views.py:73 | the keys `akun__user=user` joins through are exactly the keys of the accounts `Akun.objects.filter(user=user)` lists |
| Queries.TwoLegsNet | keuangan/views.py:148-160 | appending a debit leg and a credit leg of one amount leaves debits minus credits unchanged |
| Numerals.ParseIntToString | keuangan/views.py:617 | `int(str(i)) == i` for every integer, so a written-out key reads back as that key |
| Text.IndexOf | keuangan/views.py:625-626 | the first position at or after `from` where the separator occurs; None exactly when it occurs nowhere |
| Text.RemoveChar | keuangan/templatetags/custom_filters.py:38 | `str.replace(c, '')` leaves no c in the result |
| Text.RemoveCharCounts | keuangan/templatetags/custom_filters.py:38 | `str.replace(c, '')` keeps every other character as often as it occurs and drops every c |
| Text.RemoveCharAppend | keuangan/templatetags/custom_filters.py:38 | removal goes character by character: removing from a concatenation concatenates the results, so the kept characters stay in order |
| Text.RemoveAbsentChar | keuangan/templatetags/custom_filters.py:38 | a string without c is returned unchanged |
| Text.Strip | keuangan/views.py:627 | `str.strip()`: an infix of s that starts and ends with a non-space, with only whitespace cut off around it; empty exactly when s is blank |
| Text.UnicodeSpacesStripped | keuangan/views.py:627 | NO-BREAK SPACE alone strips to "", and a leading IDEOGRAPHIC SPACE is cut off |
| Engine.EntriesOf | keuangan/views_laporan.py:33-43 | one saldo entry per account, in account order: the account's summed debits and credits and their difference |
| Engine.ComputeAccountTotalsForUser | keuangan/views_laporan.py:16-100 | the loop computes the totals `AccountTotalsFor` defines; the five buckets are non-negative and share out the absolute balances; total_aktiva − (kewajiban + modal + pendapatan − beban) = total_debit − total_kredit |
| Engine.Accumulate | keuangan/views_laporan.py:33-89 | the loop over an account list gives the entries, the debit and credit columns and each bucket's routed total |
| Engine.RouteBalance | keuangan/views_laporan.py:48-89 | the classifier's branch tree adds the balance to exactly the bucket `Destination` names, by its magnitude |
| Engine.AccountTotalsMeaning | keuangan/views_laporan.py:55-89 | over a user's accounts the five totals sum to the absolute balances, and assets minus the right-side totals is the debit−credit gap |
| Engine.RoutingByNormalSide | keuangan/views_laporan.py:48-89 | the routing as the source states it, branch by branch: normal side, sign, then type label |
| Engine.ShareExactlyOne | keuangan/views_laporan.py:57-89 | a balance adds its magnitude to exactly one bucket and nothing to the others |
| Engine.RoutedPartition | keuangan/views_laporan.py:57-89 | over any entry list the five bucket totals add up to the sum of the absolute balances |
| Engine.SignedBuckets | keuangan/views_laporan.py:57-89 | aktiva + beban − kewajiban − modal − pendapatan equals the signed sum of the balances |
| Engine.EntriesBalance | keuangan/views_laporan.py:34-46 | the balances of the entries sum to the debit column minus the credit column |
| Engine.NoPostingsZeroEntry | keuangan/views_laporan.py:34-36 | an account without postings gets debit, credit and balance 0 (the Coalesce default) |
| Engine.TwoAccountTotals | keuangan/views_laporan.py:33-46 | two accounts of one user with one posting each give the two expected entries |
| Engine.CapitalInjectionScenario | keuangan/views_laporan.py:57-89 | Kas debited and Modal Saham credited with 50,000,000.00: aktiva and modal each hold the amount, the other buckets 0, the columns agree |
| Engine.OverdrawnBankScenario | keuangan/views_laporan.py:57-74 | Beban Gaji debited and Bank (an asset) credited with 12,000,000.00: beban and kewajiban hold the amount, the rest 0 |
| Reports.Pages | keuangan/views_laporan.py:110-121 | one ledger page per account, in order, each with that account's postings and their sums |
| Reports.LedgerPages | keuangan/views_laporan.py:106-124 | the view's loop produces the pages and accumulates the grand totals as the engine's debit and credit columns |
| Reports.BukuBesar | keuangan/views_laporan.py:103-133 | buku_besar lists the user's accounts, one page each, and its grand totals equal compute_account_totals_for_user's |
| Reports.TrialRowOf | keuangan/views_laporan.py:145-156 | a trial line shows the balance in one non-negative column only, and debit column − credit column = debit − credit |
| Reports.TrialRows | keuangan/views_laporan.py:140-156 | one trial line per entry, in order |
| Reports.TrialLines | keuangan/views_laporan.py:140-156 | the view's loop produces exactly the trial lines of the entries |
| Reports.NeracaSaldo | keuangan/views_laporan.py:136-173 | neraca_saldo shows the engine's totals, laba_rugi = pendapatan − beban, and total_aktiva − rhs_total = total_debit − total_kredit |
| Reports.DisplayRows | keuangan/views_laporan.py:192-201 | a statement list holds only accounts of its labels, each with a non-negative amount |
| Reports.DisplayRowsMeaning | keuangan/views_laporan.py:192-201 | every entry of a listed type has a line with max(saldo, 0) (debit side) or max(−saldo, 0) (credit side), and every line comes from such an entry |
| Reports.LaporanRows | keuangan/views_laporan.py:190 | the laporan list has one line per entry carrying its signed balance |
| Reports.AssetLabelsSeparate | keuangan/views_laporan.py:192-201 | no asset label is a liability, modal, pendapatan or beban label, so the elif chain puts each account in at most one list |
| Reports.GroupStatement | keuangan/views_laporan.py:187-201 | the grouping loop builds exactly the six lists: every entry in laporan, and each typed entry in its list with the magnitude of its active side |
| Reports.ModalWithEarnings | keuangan/views_laporan.py:212-214 | the earnings line is appended, carrying abs(net income), exactly when net income ≠ 0 |
| Reports.CashFlowOf | keuangan/views_laporan.py:222-234 | operating cash in = total_pendapatan, out = total_beban, net = net income; nothing from investing; financing in = total_modal, out = 0; total = net income + total_modal; opening cash 0; closing cash = total_aktiva |
| Reports.ProfitMargin | keuangan/views_laporan.py:237 | 0 with no revenue; otherwise margin × revenue = net income × 100 |
| Reports.CurrentRatio | keuangan/views_laporan.py:238 | None exactly when there are no liabilities; otherwise ratio × liabilities = assets |
| Reports.LaporanKeuangan | keuangan/views_laporan.py:176-271 | the statement as written: the lists grouped with line 192's four asset labels, the engine's totals, the earnings line, cash flow and ratios; equation_right = kewajiban + total_modal_display; total_aktiva − equation_right = total_debit − total_kredit |
| Reports.LaporanKeuanganCorrected | keuangan/views_laporan.py:176-271 | the statement with all five asset labels under aktiva; the same totals and equation gap, and its aktiva list misses only debit balances of credit-normal accounts |
| Reports.Reconcile | keuangan/views_laporan.py:187-207 | when a list shows what is routed to a bucket, its total plus other accounts' contributions is the bucket's total |
| Reports.BebanReconciles | keuangan/views_laporan.py:200-207 | the beban list adds up to total_beban |
| Reports.ModalReconciles | keuangan/views_laporan.py:196-207 | the modal list, before the earnings line, adds up to total_modal |
| Reports.PendapatanReconciles | keuangan/views_laporan.py:198-207 | the pendapatan list misses only what credit balances of other accounts add to total_pendapatan |
| Reports.KewajibanReconciles | keuangan/views_laporan.py:194-207 | the kewajiban list misses only the credit balances of non-liability accounts |
| Reports.AktivaReconciles | keuangan/views_laporan.py:192-207 | with all five asset labels listed, the aktiva list misses only debit balances of credit-normal accounts |
| Reports.AktivaAsWrittenReconciles | keuangan/views_laporan.py:192-207 | the aktiva list as written misses what every account outside its four labels routes to total_aktiva, 'Aktiva Lainnya' included |
| Reports.OtherAssetsUnlisted | keuangan/views_laporan.py:192-193 | an 'Aktiva Lainnya' account with a debit balance counts in total_aktiva, but the lists as written show it nowhere |
| Reports.ModalDisplayReconciles | keuangan/views_laporan.py:212-217 | the modal list with the earnings line sums to total_modal + abs(net income); this matches total_modal_display exactly when there is no loss |
| LegacyReports.ColumnGap | keuangan/views.py:277-298 | the summed trial columns are non-negative and differ by total debits − total credits |
| LegacyReports.TrialColumns | keuangan/views.py:273-298 | the loop yields the trial lines and column sums that differ by debit − credit |
| LegacyReports.NeracaSaldoLegacy | keuangan/views.py:270-306 | the older trial balance has the routed view's lines, and its two column totals agree exactly when the ledger's debits and credits do |
| LegacyReports.LaporanKeuanganLegacy | keuangan/views.py:339-387 | the older statement: the lists as grouped, the engine's totals, laba_rugi = pendapatan − beban |
| LegacyReports.LegacyMatchesRouted | keuangan/views.py:371-385 | the older statement agrees with what Reports.LaporanKeuangan returns for the same totals; the routed modal list only adds the earnings line |
| Dashboard.DashboardOf | keuangan/views.py:73-120 | with distinct account keys, total_debet and total_kredit are the reports' grand debit and credit totals, and is_balanced holds exactly when those agree; total_akun counts the user's accounts |
| Dashboard.ColumnsOverAccounts | keuangan/views.py:73-79 | summing per account, as the engine does, gives the same totals as one aggregate over all postings on those accounts |
| Dashboard.UserColumnsAreEngineTotals | keuangan/views.py:73-79 | the aggregate over `akun__user=user` equals the engine's grand debit and credit totals |
| Filters.TruncateCents | keuangan/templatetags/custom_filters.py:22 | `int()` of a two-place Decimal truncates toward zero, keeping the sign |
| Filters.GroupDigitsLength | keuangan/templatetags/custom_filters.py:22 | grouping adds one separator per full group of three ahead of the last group |
| Filters.GroupDigitsShape | keuangan/templatetags/custom_filters.py:22 | grouped digits: every fourth character from the right is '.', every other one a digit |
| Filters.UngroupDigits | keuangan/templatetags/custom_filters.py:22 | removing the '.' separators gives back the digits |
| Filters.ThousandsMeaning | keuangan/templatetags/custom_filters.py:22 | `f"{i:,}"` with ',' replaced by '.': a leading '-' exactly for negatives, then a grouped run that starts with a digit, and without the dots it reads back as i |
| Filters.CurrencyFormat | keuangan/templatetags/custom_filters.py:8-25 | currency_format is "Rp " followed by what number_format prints, on every input |
| Filters.NumberFormat | keuangan/templatetags/custom_filters.py:28-43 | None and "" print "0" |
| Filters.FormatDecimalWhole | keuangan/templatetags/custom_filters.py:74-86 | format_decimal with no decimal places prints what number_format prints |
| Filters.NumberFormatReadsBack | keuangan/templatetags/custom_filters.py:28-43 | a value int() refuses prints "0"; any other value prints a string that reads back, without dots, as int(value) |
| Filters.IntOf | keuangan/templatetags/custom_filters.py:36-40 | `int()` as the filters apply it: an int is itself, a Decimal is truncated toward zero, None and unsupported values are refused, and a digit string, commas removed, is the number it spells |
| Filters.ParseTruncatedWhole | keuangan/templatetags/custom_filters.py:37-40 | the model's exact reading of `str(i)` gives back i for every integer; Python's `float()` agrees only for magnitudes up to 2^53 |
| Filters.ParseTruncatedFraction | keuangan/templatetags/custom_filters.py:37-40 | the model's reading of "i.ddd" drops the fraction and gives i, for either sign; Python's `float()` can round a long fraction up |
| Filters.MillionExample | keuangan/templatetags/custom_filters.py:28-32 | 1000000 prints as "1.000.000" |
| Filters.NegativeDecimalExample | keuangan/templatetags/custom_filters.py:8-23 | the Decimal −1234.56 prints as "Rp -1.234" |
| Resolve.First | keuangan/views.py:621 | `.first()`: None exactly when nothing matches; otherwise the earliest matching account |
| Resolve.ById | keuangan/views.py:617-618 | finds an account exactly when val reads as the key of one of the user's accounts, and then that account |
| Resolve.ByKodeOrNama | keuangan/views.py:621-623 | finds an account exactly when one of the user's accounts matches val by kode or nama, ignoring case, and then the earliest such |
| Resolve.WithKode | keuangan/views.py:628 | finds an account exactly when one of the user's accounts has the kode, and then such an account |
| Resolve.ByDisplayPrefix | keuangan/views.py:625-630 | finds an account exactly when val holds " - " and one of the user's accounts has the stripped text before it as kode |
| Resolve.ResolveAkun | keuangan/views.py:614-631 | a resolved account is the user's own and matches val by key, kode, nama or display-string kode; an owned key always wins; without one, the earliest kode or nama match wins; only without either is the display-string kode used; None exactly when all three steps miss |
| Resolve.ResolveOwnId | keuangan/views.py:617-618 | an owned account's key, written out, resolves to that account |
| Resolve.DisplayPrefix | keuangan/views.py:625-627 | for a kode without whitespace, the stripped text before the first " - " of `kode - nama` is the kode |
| Resolve.ResolveDisplayString | keuangan/views.py:624-630 | an account's own display string resolves to that account, given a whitespace-free kode and no account named by that string |
| Resolve.OwnKode | keuangan/views.py:628 | under `(user, kode)` uniqueness, the user's lookup by an account's kode finds that account |
| Ledger.BalancedByTransaksi | keuangan/views.py:142-160 | if each transaction's postings balance on a set of accounts, all postings on those accounts balance |
| Ledger.UserLegsBalance | keuangan/views.py:142-160 | in a valid ledger a transaction's postings, restricted to any one user's accounts, balance |
| Ledger.LedgerBalanced | keuangan/views.py:142-160 | in a valid ledger each user's postings balance, and so do all postings together |
| Ledger.EquationGap | keuangan/views_laporan.py:210-220 | total_aktiva − equation_right = total_debit − total_kredit, for every ledger |
| Ledger.ValidLedgerReportsBalanced | keuangan/views.py:105-120 | in a valid ledger the dashboard shows is_balanced with selisih 0, and total_aktiva = equation_right |
| Ledger.LegsBalance | keuangan/views.py:148-160 | the debit and credit legs of one amount balance |
| Ledger.Retitle | keuangan/views.py:719-721 | only the updated transaction gets the new date and description; keys, owners and other rows are unchanged |
| Ledger.ReplaceLegs | keuangan/views.py:717-724 | after an update the postings are the other transactions' ones plus the new legs; accounts and other transactions are kept |
| Ledger.AddKeepsValid | keuangan/views.py:142-160 | a fresh transaction with balancing legs on its owner's accounts keeps the ledger valid |
| Ledger.AddKeepsKeys | keuangan/views.py:142-160 | a fresh key keeps transaction keys unique and all postings referenced |
| Ledger.AddKeepsOwners | keuangan/views.py:142-160 | legs on accounts of the transaction's owner keep owners in agreement |
| Ledger.AddKeepsBalanced | keuangan/views.py:142-160 | a fresh transaction with balancing legs keeps every transaction balanced |
| Ledger.RetitleOrigins | keuangan/views.py:719-721 | every retitled row keeps the key and owner of the row it replaces |
| Ledger.RetitleKeys | keuangan/views.py:719-721 | retitling keeps the set of keys and their uniqueness |
| Ledger.ReplacedBalance | keuangan/views.py:717-724 | after an update each transaction's postings balance as before; the updated one has its new legs' balance |
| Ledger.ReplaceOwners | keuangan/views.py:717-724 | new legs on the owner's accounts keep owners in agreement |
| Ledger.ReplaceBalanced | keuangan/views.py:717-724 | replacing a transaction's postings by balancing legs keeps every transaction balanced |
| Ledger.ReplaceReferenced | keuangan/views.py:717-724 | legs on existing accounts of an existing transaction keep every posting referenced |
| Ledger.ReplaceKeepsValid | keuangan/views.py:717-724 | an update with legs on the owner's accounts keeps the ledger valid |
| Ledger.ReplaceFresh | keuangan/views.py:723-724 | an update's new legs take keys above every existing posting key |
| Ledger.DeleteKeepsValid | keuangan/views.py:736-737 | deleting a transaction with its cascaded postings keeps the ledger valid |
| Ledger.RemoveUnusedAkunKeepsValid | keuangan/views.py:528-536 | deleting an account no posting refers to removes that account alone and keeps the ledger valid |
| Ledger.RecordConsistent | keuangan/views.py:142-160 | saving under the next keys keeps the ledger valid and every key below the new counters |
| Ledger.RewriteConsistent | keuangan/views.py:717-724 | an update under the next posting keys keeps the ledger valid and every key below the counters |
| Ledger.DeleteConsistent | keuangan/views.py:736-737 | a delete keeps the ledger valid and every key below the counters |
| Ledger.RemoveAkunConsistent | keuangan/views.py:528-536 | removing an unused account keeps the ledger valid and every key below the counters |
| Ledger.CheckPayload | keuangan/views.py:598-640 | the shared API checks, in the views' order: a failed float() conversion gives 400 invalid input; a missing field or non-positive amount gives 400 missing fields; with every field present, 400 account-not-found exactly when either value resolves to none of the user's accounts, 400 same-account exactly when both resolve to one account, and acceptance exactly when they resolve to two; an accepted request has a date, a description, a positive amount, and as debit and credit accounts exactly what `resolve_akun_local` makes of akun_debet and akun_kredit |
| Ledger.Ledger.Record | keuangan/views.py:142-160 | saves a transaction and its two legs under the next keys; the ledger stays valid |
| Ledger.Ledger.Rewrite | keuangan/views.py:717-724 | replaces a transaction's postings and sets its date and description; the ledger stays valid |
| Ledger.Ledger.InputTransaksi | keuangan/views.py:129-168 | GET shows the form; an invalid form (no date, a blank, over-long or NUL-holding description, a foreign account, an amount over 12 digits) or the same account twice changes nothing; otherwise one transaction with its stripped description and two legs is saved; the ledger stays valid |
| Ledger.Ledger.ApiCreate | keuangan/views.py:586-656 | a non-POST or a rejected payload changes nothing and reports the reason; otherwise one transaction and its two legs are added, the debit leg on the account akun_debet resolves to and the credit leg on the one akun_kredit resolves to; the ledger stays valid |
| Ledger.Ledger.ApiUpdate | keuangan/views.py:661-726 | 404 unless the transaction is the user's; a rejected payload changes nothing and reports the reason; an accepted one always replaces the postings by the new legs, on the resolved debit and credit accounts, and sets the date and description, and nothing else changes; the ledger stays valid |
| Ledger.Ledger.ApiDelete | keuangan/views.py:730-738 | the user's transaction and its postings are removed exactly on a POST naming it; otherwise nothing changes |
| Ledger.Ledger.HapusAkun | keuangan/views.py:522-544 | 404 exactly when the account is not the user's; while postings refer to it, their count is reported and nothing changes; a count is reported only when postings exist; otherwise a POST removes that account alone and a GET, exactly then, shows the confirmation |

## Left out

- parse_date_flexible (`keuangan/views.py:39-62`): date parsing is not modelled. The forms and the API payload carry its result as `Option<Date>`.
- Decimal and float arithmetic: amounts are exact integer cents. The API converts `jumlah` with `float()`. Its binary rounding, and the database's rounding to two places, are not modelled.
- Ledger.Ledger.ApiCreate: the database's own rejection of a description over 255 characters or an amount over 12 digits is not modelled. The API checks neither.
- Ledger.Ledger.ApiUpdate: same as ApiCreate for the 255-character and 12-digit limits.
- Request decoding: content types, JSON decoding errors, and missing request bodies are outside the model. The payload arrives already converted.
- JSON values in the payload that are not strings (a numeric `akun_debet` in JSON, say) are not modelled. Account fields are strings.
- Numerals.ParseInt: `int()` also accepts surrounding whitespace, underscores and non-ASCII digits. The model accepts an optional sign and ASCII digits only.
- Filters.NumberFormat: its own contract covers only the empty inputs. What it prints for every other value is stated by Filters.NumberFormatReadsBack and Filters.ThousandsMeaning.
- Filters.ParseTruncated: `float()` also accepts exponents, `inf`/`nan`, whitespace and underscores. The model reads an optional sign, digits and an optional fraction. Python floats handed directly to a filter are not modelled.
- Filters.ParseTruncated: the model reads a digit string exactly. `float()` rounds to the nearest double, so above 2^53 the source can print a neighbouring number (`int(float("9007199254740993"))` is 9007199254740992), and a long fraction can round up (`"0.99999999999999999"` becomes 1). Past about 1.8e308 `float()` gives inf, and `int()` then raises OverflowError, which the filters do not catch. Filters.ParseTruncatedWhole and Filters.ParseTruncatedFraction state facts about the model, and the source agrees with them only for magnitudes up to 2^53 and short fractions.
- compact_currency (`keuangan/templatetags/custom_filters.py:46-71`) is not modelled: its one-decimal float formatting is floating point.
- format_decimal with decimal_places > 0 is not modelled, for the same reason.
- Text.EqualsIgnoreCase: `iexact` is modelled as ASCII case folding. Unicode case folding is not modelled.
- Text.RemoveChar: its own contract says only that no c is left. That every other character is kept, in order, is stated by Text.RemoveCharCounts and Text.RemoveCharAppend.
- Reports.DisplayRows: its own contract gives only the labels and signs of the lines. Which lines there are, and their values, is stated by Reports.DisplayRowsMeaning.
- The dashboard's transaction counts, today's count, recent transactions and user-profile creation are not modelled (views.py:81-103, 107-110). Those use the clock and ordering by date.
- jurnal_umum, transaksi_api_list, daftar_akun, tambah_akun and edit_akun are not modelled. They are listings and forms that do not touch the balances beyond what is modelled.
- The PDF and Excel exports, login/registration and profile views are not modelled.
- Messages, redirects, templates and HTTP status codes are not modelled. They become outcome values of the methods.
- Concurrency: each `transaction.atomic` view is one method call on the ledger. Interleavings are not modelled.
- Query order: querysets without `order_by` are taken in table (key) order.
- Resolve.ResolveDisplayString: the round trip is proved under a sufficient condition, a kode without whitespace. Inner spaces alone do no harm ("1 01 - Kas" splits back to "1 01"). What goes wrong is leading or trailing whitespace, which the strip removes, or a kode holding " - " or ending in " -", which splits earlier than the display string's separator.

## Findings

| source | as written | input that shows it | evidently intended | confidence | as-written member | corrected member |
|---|---|---|---|---|---|---|
| keuangan/views_laporan.py:192 | the statement's aktiva list takes the labels 'Aset', 'Aktiva', 'Aktiva Lancar' and 'Aktiva Tetap', leaving out 'Aktiva Lainnya', which the engine's asset list (line 30) includes; views.py:354 repeats the shorter list | one account of type 'Aktiva Lainnya' with a debit balance of 100.00: total_aktiva is 100.00, and the account appears in no statement list except laporan | list every label the engine treats as an asset, so the aktiva list shows every account that total_aktiva counts | not executed | Reports.OtherAssetsUnlisted | Reports.LaporanKeuanganCorrected |

=== FILE: dashboard.dfy ===
/**
 * The dashboard's ledger figures: the debit and credit totals over the
 * postings on the user's accounts, their difference (selisih), whether
 * they agree (is_balanced), and the user's account count.
 */
module Dashboard {
  import opened Models
  import opened Queries
  import opened Engine

  datatype DashboardView = DashboardView(totalDebet: int, totalKredit: int, totalAkun: nat,
                                         selisih: int, isBalanced: bool)

  /**
   * The figures; an empty posting set gives 0 for both totals. With
   * distinct account keys the totals are the engine's grand totals, so
   * is_balanced holds exactly when the reports' debit and credit totals
   * agree.
   */
  function DashboardOf(akuns: seq<Akun>, js: seq<Jurnal>, user: UserId): (d: DashboardView)
    ensures d.selisih == d.totalDebet - d.totalKredit
    ensures d.isBalanced <==> d.selisih == 0
    ensures d.totalAkun == |AkunsOf(akuns, user)|
    ensures AkunIdsIncreasing(akuns) ==>
              var t := AccountTotalsFor(akuns, js, user);
              && d.totalDebet == t.totalDebit && d.totalKredit == t.totalKredit
              && (d.isBalanced <==> t.totalDebit == t.totalKredit)
  {
    var mine := OfUser(js, akuns, user);
    var totalDebet, totalKredit := Debits(mine), Kredits(mine);
    var d := DashboardView(totalDebet, totalKredit, |AkunsOf(akuns, user)|, totalDebet - totalKredit, totalDebet == totalKredit);
    if AkunIdsIncreasing(akuns) then
      UserColumnsAreEngineTotals(akuns, js, user);
      d
    else
      d
  }

  lemma AkunIdsAppend(akunList: seq<Akun>, a: Akun)
    ensures AkunIds(akunList + [a]) == AkunIds(akunList) + {a.id}
  {
    var l := akunList + [a];
    assert a in l;
    forall b | b in akunList
      ensures b in l
    {
    }
  }

  /**
   * Over accounts with distinct keys, the per-account sums add up to the
   * sums over all postings on those accounts.
   */
  lemma {:induction false} ColumnsOverAccounts(akunList: seq<Akun>, js: seq<Jurnal>)
    requires AkunIdsIncreasing(akunList)
    ensures DebitColumn(EntriesOf(akunList, js)) == Debits(OfAkunIn(js, AkunIds(akunList)))
    ensures KreditColumn(EntriesOf(akunList, js)) == Kredits(OfAkunIn(js, AkunIds(akunList)))
  {
    if akunList == [] {
      OfAkunInNone(js, {});
    } else {
      var init, a := akunList[..|akunList| - 1], akunList[|akunList| - 1];
      var ids := AkunIds(init);
      assert a.id !in ids by {
        LastAkunApart(akunList);
      }
      assert AkunIds(akunList) == ids + {a.id} by {
        assert akunList == init + [a];
        AkunIdsAppend(init, a);
      }
      assert AkunIdsIncreasing(init);
      ColumnsOverAccounts(init, js);
      SplitOneAkun(js, ids, a.id);
      assert EntriesOf(akunList, js) == EntriesOf(init, js) + [EntryFor(a, js)];
      AppendEntry(EntriesOf(init, js), EntryFor(a, js));
    }
  }

  /**
   * With distinct account keys, the aggregate over the postings on the
   * user's accounts (`akun__user=user`) equals the engine's grand totals.
   */
  lemma UserColumnsAreEngineTotals(akuns: seq<Akun>, js: seq<Jurnal>, user: UserId)
    requires AkunIdsIncreasing(akuns)
    ensures var t := AccountTotalsFor(akuns, js, user);
      Debits(OfUser(js, akuns, user)) == t.totalDebit && Kredits(OfUser(js, akuns, user)) == t.totalKredit
  {
    AkunsOfIncreasing(akuns, user);
    ColumnsOverAccounts(AkunsOf(akuns, user), js);
    UserAkunIdsAreAkunsOf(akuns, user);
  }
}

=== FILE: engine.dfy ===
/**
 * compute_account_totals_for_user: one balance entry per account of the
 * user, the grand debit and credit totals, and each balance routed into
 * one of five report totals (aktiva, kewajiban, modal, pendapatan, beban)
 * according to the account type's normal side and the balance's sign.
 */
module Engine {
  import opened Models
  import opened Queries

  /** The type labels treated as assets. */
  const AssetTypes: seq<string> := ["Aset", "Aktiva", "Aktiva Lancar", "Aktiva Tetap", "Aktiva Lainnya"]

  /** The type labels treated as liabilities. */
  const LiabilityTypes: seq<string> := ["Kewajiban", "Kewajiban Lancar", "Kewajiban Jangka Panjang"]

  datatype NormalSide = DebitNormal | CreditNormal

  /**
   * The classifier: asset labels and 'Beban' are debit-normal; every other
   * label, recognised or not, is credit-normal.
   */
  function NormalSideOf(tipe: string): NormalSide
  {
    if tipe in AssetTypes || tipe == "Beban" then DebitNormal else CreditNormal
  }

  datatype Bucket = Aktiva | Kewajiban | Modal | Pendapatan | Beban

  function Abs(x: int): nat
  {
    if x < 0 then -x else x
  }

  /**
   * Where a non-zero balance ends up, decided by its sign first: a debit
   * balance goes to beban for 'Beban' and to aktiva otherwise; a credit
   * balance goes to pendapatan for 'Beban' and 'Pendapatan', to modal for
   * 'Modal' and to kewajiban otherwise.
   */
  function Destination(tipe: string, saldo: int): Bucket
  {
    if saldo > 0 then
      if tipe == "Beban" then Beban else Aktiva
    else if tipe == "Beban" || tipe == "Pendapatan" then Pendapatan
    else if tipe == "Modal" then Modal
    else Kewajiban
  }

  /** One element of the 'saldo' list. */
  datatype SaldoEntry = SaldoEntry(akun: Akun, debit: int, kredit: int, saldo: int)

  /** What an entry adds to bucket b. */
  function Share(e: SaldoEntry, b: Bucket): nat
  {
    if e.saldo != 0 && Destination(e.akun.tipe, e.saldo) == b then Abs(e.saldo) else 0
  }

  /** The entry of one account: its summed postings and their difference. */
  function EntryFor(a: Akun, js: seq<Jurnal>): SaldoEntry
  {
    var d := Debits(OfAkun(js, a.id));
    var k := Kredits(OfAkun(js, a.id));
    SaldoEntry(a, d, k, d - k)
  }

  /** The entries of a list of accounts, one per account, in the same order. */
  function EntriesOf(akunList: seq<Akun>, js: seq<Jurnal>): (r: seq<SaldoEntry>)
    ensures |r| == |akunList|
    ensures forall i :: 0 <= i < |r| ==> r[i] == EntryFor(akunList[i], js)
  {
    if akunList == [] then []
    else EntriesOf(akunList[..|akunList| - 1], js) + [EntryFor(akunList[|akunList| - 1], js)]
  }

  // ----- column sums of an entry list -----

  function DebitColumn(entries: seq<SaldoEntry>): int
  {
    if entries == [] then 0 else DebitColumn(entries[..|entries| - 1]) + entries[|entries| - 1].debit
  }

  function KreditColumn(entries: seq<SaldoEntry>): int
  {
    if entries == [] then 0 else KreditColumn(entries[..|entries| - 1]) + entries[|entries| - 1].kredit
  }

  function SaldoSum(entries: seq<SaldoEntry>): int
  {
    if entries == [] then 0 else SaldoSum(entries[..|entries| - 1]) + entries[|entries| - 1].saldo
  }

  function AbsSum(entries: seq<SaldoEntry>): nat
  {
    if entries == [] then 0 else AbsSum(entries[..|entries| - 1]) + Abs(entries[|entries| - 1].saldo)
  }

  /** The total of bucket b over the entries. */
  function Routed(entries: seq<SaldoEntry>, b: Bucket): nat
  {
    if entries == [] then 0 else Routed(entries[..|entries| - 1], b) + Share(entries[|entries| - 1], b)
  }

  /** The dictionary the helper returns. */
  datatype AccountTotals = AccountTotals(
    saldo: seq<SaldoEntry>,
    totalDebit: int,
    totalKredit: int,
    totalAktiva: int,
    totalKewajiban: int,
    totalModal: int,
    totalPendapatan: int,
    totalBeban: int)

  function Summarize(entries: seq<SaldoEntry>): AccountTotals
  {
    AccountTotals(entries, DebitColumn(entries), KreditColumn(entries),
                  Routed(entries, Aktiva), Routed(entries, Kewajiban), Routed(entries, Modal),
                  Routed(entries, Pendapatan), Routed(entries, Beban))
  }

  /** The totals of user's accounts, in account table order. */
  function AccountTotalsFor(akuns: seq<Akun>, js: seq<Jurnal>, user: UserId): AccountTotals
  {
    Summarize(EntriesOf(AkunsOf(akuns, user), js))
  }

  /**
   * The helper as written: a loop over the user's accounts that appends an
   * entry and updates the accumulators along the classifier's branch tree.
   */
  method ComputeAccountTotalsForUser(akuns: seq<Akun>, js: seq<Jurnal>, user: UserId) returns (data: AccountTotals)
    ensures data == AccountTotalsFor(akuns, js, user)
    ensures data.totalAktiva >= 0 && data.totalKewajiban >= 0 && data.totalModal >= 0
         && data.totalPendapatan >= 0 && data.totalBeban >= 0
    ensures data.totalAktiva + data.totalKewajiban + data.totalModal + data.totalPendapatan + data.totalBeban
         == AbsSum(data.saldo)
    ensures data.totalAktiva - (data.totalKewajiban + data.totalModal + (data.totalPendapatan - data.totalBeban))
         == data.totalDebit - data.totalKredit
  {
    data := Accumulate(AkunsOf(akuns, user), js);
    AccountTotalsMeaning(akuns, js, user);
  }

  /** The helper's loop over the accounts, from empty accumulators. */
  method Accumulate(akunList: seq<Akun>, js: seq<Jurnal>) returns (data: AccountTotals)
    ensures data == Summarize(EntriesOf(akunList, js))
  {
    var saldo: seq<SaldoEntry> := [];
    var totalDebit := 0;
    var totalKredit := 0;
    var totalAktiva := 0;
    var totalKewajiban := 0;
    var totalModal := 0;
    var totalPendapatan := 0;
    var totalBeban := 0;

    for i := 0 to |akunList|
      invariant saldo == EntriesOf(akunList[..i], js)
      invariant totalDebit == DebitColumn(saldo) && totalKredit == KreditColumn(saldo)
      invariant totalAktiva == Routed(saldo, Aktiva) && totalKewajiban == Routed(saldo, Kewajiban)
      invariant totalModal == Routed(saldo, Modal) && totalPendapatan == Routed(saldo, Pendapatan)
      invariant totalBeban == Routed(saldo, Beban)
    {
      var akun := akunList[i];
      var debitSum := Debits(OfAkun(js, akun.id));
      var kreditSum := Kredits(OfAkun(js, akun.id));
      var saldoAkhir := debitSum - kreditSum;
      var e := SaldoEntry(akun, debitSum, kreditSum, saldoAkhir);
      assert akunList[..i + 1][..i] == akunList[..i];
      AppendEntry(saldo, e);
      saldo := saldo + [e];

      totalDebit := totalDebit + debitSum;
      totalKredit := totalKredit + kreditSum;

      totalAktiva, totalKewajiban, totalModal, totalPendapatan, totalBeban :=
        RouteBalance(e, totalAktiva, totalKewajiban, totalModal, totalPendapatan, totalBeban);
    }
    assert akunList[..|akunList|] == akunList;
    data := AccountTotals(saldo, totalDebit, totalKredit, totalAktiva, totalKewajiban, totalModal, totalPendapatan, totalBeban);
  }

  /**
   * The five report totals are non-negative and share out the absolute
   * balances between them; assets minus liabilities, equity and earnings
   * is the gap between the debit and credit totals.
   */
  lemma AccountTotalsMeaning(akuns: seq<Akun>, js: seq<Jurnal>, user: UserId)
    ensures var data := AccountTotalsFor(akuns, js, user);
      && data.totalAktiva + data.totalKewajiban + data.totalModal + data.totalPendapatan + data.totalBeban
         == AbsSum(data.saldo)
      && data.totalAktiva - (data.totalKewajiban + data.totalModal + (data.totalPendapatan - data.totalBeban))
         == data.totalDebit - data.totalKredit
  {
    var entries := EntriesOf(AkunsOf(akuns, user), js);
    RoutedPartition(entries);
    SignedBuckets(entries);
    EntriesBalance(AkunsOf(akuns, user), js);
  }

  // ----- routing, one entry at a time -----

  /**
   * The body of the helper's routing step as written: the classifier's
   * branch tree adding the entry's balance to one accumulator.
   */
  method RouteBalance(e: SaldoEntry, aktiva: int, kewajiban: int, modal: int, pendapatan: int, beban: int)
    returns (aktiva': int, kewajiban': int, modal': int, pendapatan': int, beban': int)
    ensures aktiva' == aktiva + Share(e, Aktiva) && kewajiban' == kewajiban + Share(e, Kewajiban)
    ensures modal' == modal + Share(e, Modal) && pendapatan' == pendapatan + Share(e, Pendapatan)
    ensures beban' == beban + Share(e, Beban)
  {
    RoutingByNormalSide(e);
    ShareExactlyOne(e);
    var akun, saldoAkhir := e.akun, e.saldo;
    aktiva', kewajiban', modal', pendapatan', beban' := aktiva, kewajiban, modal, pendapatan, beban;
    var normal := NormalSideOf(akun.tipe);
    if normal == DebitNormal {
      if saldoAkhir >= 0 {
        if akun.tipe in AssetTypes {
          aktiva' := aktiva + saldoAkhir;
        } else if akun.tipe == "Beban" {
          beban' := beban + saldoAkhir;
        } else {
          // the source's "unknown → aktiva" default: no debit-normal label gets here
          assert false;
        }
      } else {
        if akun.tipe in AssetTypes {
          kewajiban' := kewajiban + Abs(saldoAkhir);
        } else if akun.tipe == "Beban" {
          pendapatan' := pendapatan + Abs(saldoAkhir);
        } else {
          // the source's "unknown → kewajiban" default: unreachable likewise
          assert false;
        }
      }
    } else {
      if saldoAkhir <= 0 {
        var val := Abs(saldoAkhir);
        if akun.tipe in LiabilityTypes {
          kewajiban' := kewajiban + val;
        } else if akun.tipe == "Modal" {
          modal' := modal + val;
        } else if akun.tipe == "Pendapatan" {
          pendapatan' := pendapatan + val;
        } else {
          kewajiban' := kewajiban + val;
        }
      } else {
        aktiva' := aktiva + saldoAkhir;
      }
    }
  }

  /** Appending one entry adds its columns and its shares to the sums. */
  lemma AppendEntry(entries: seq<SaldoEntry>, e: SaldoEntry)
    ensures DebitColumn(entries + [e]) == DebitColumn(entries) + e.debit
    ensures KreditColumn(entries + [e]) == KreditColumn(entries) + e.kredit
    ensures forall b :: Routed(entries + [e], b) == Routed(entries, b) + Share(e, b)
  {
    assert (entries + [e])[..|entries|] == entries;
  }

  /**
   * The routing as the branch tree states it, in terms of the classifier:
   * debit-normal balances go to aktiva/beban when non-negative and to
   * kewajiban/pendapatan when negative; credit-normal balances go to
   * kewajiban/modal/pendapatan when non-positive and to aktiva when positive.
   */
  lemma RoutingByNormalSide(e: SaldoEntry)
    ensures var t, s := e.akun.tipe, e.saldo;
      && (NormalSideOf(t) == DebitNormal && s >= 0 ==>
            (t in AssetTypes ==> Share(e, Aktiva) == s) && (t == "Beban" ==> Share(e, Beban) == s))
      && (NormalSideOf(t) == DebitNormal && s < 0 ==>
            (t in AssetTypes ==> Share(e, Kewajiban) == -s) && (t == "Beban" ==> Share(e, Pendapatan) == -s))
      && (NormalSideOf(t) == CreditNormal && s <= 0 ==>
            (t in LiabilityTypes ==> Share(e, Kewajiban) == -s)
            && (t == "Modal" ==> Share(e, Modal) == -s)
            && (t == "Pendapatan" ==> Share(e, Pendapatan) == -s)
            && (t !in LiabilityTypes && t != "Modal" && t != "Pendapatan" ==> Share(e, Kewajiban) == -s))
      && (NormalSideOf(t) == CreditNormal && s > 0 ==> Share(e, Aktiva) == s)
  {
    assert "Beban" !in AssetTypes && "Pendapatan" !in AssetTypes && "Modal" !in AssetTypes;
    assert "Pendapatan" !in LiabilityTypes && "Modal" !in LiabilityTypes && "Beban" !in LiabilityTypes;
  }

  /** An entry adds |saldo| to exactly one bucket and nothing to the others. */
  lemma ShareExactlyOne(e: SaldoEntry)
    ensures Share(e, Aktiva) + Share(e, Kewajiban) + Share(e, Modal) + Share(e, Pendapatan) + Share(e, Beban)
         == Abs(e.saldo)
    ensures forall b :: Share(e, b) != 0 ==> b == Destination(e.akun.tipe, e.saldo)
  {
  }

  // ----- the totals over a whole entry list -----

  /** The five totals together are the sum of the absolute balances. */
  lemma {:induction false} RoutedPartition(entries: seq<SaldoEntry>)
    ensures Routed(entries, Aktiva) + Routed(entries, Kewajiban) + Routed(entries, Modal)
          + Routed(entries, Pendapatan) + Routed(entries, Beban) == AbsSum(entries)
  {
    if entries != [] {
      RoutedPartition(entries[..|entries| - 1]);
      ShareExactlyOne(entries[|entries| - 1]);
    }
  }

  /** Left-side totals minus right-side totals give back the signed balance sum. */
  lemma {:induction false} SignedBuckets(entries: seq<SaldoEntry>)
    ensures Routed(entries, Aktiva) + Routed(entries, Beban)
          - Routed(entries, Kewajiban) - Routed(entries, Modal) - Routed(entries, Pendapatan)
         == SaldoSum(entries)
  {
    if entries != [] {
      SignedBuckets(entries[..|entries| - 1]);
    }
  }

  /** The balances of entries built from postings sum to debits minus credits. */
  lemma {:induction false} EntriesBalance(akunList: seq<Akun>, js: seq<Jurnal>)
    ensures var entries := EntriesOf(akunList, js);
      SaldoSum(entries) == DebitColumn(entries) - KreditColumn(entries)
  {
    if akunList != [] {
      var entries := EntriesOf(akunList, js);
      EntriesBalance(akunList[..|akunList| - 1], js);
      assert entries[..|entries| - 1] == EntriesOf(akunList[..|akunList| - 1], js);
    }
  }

  /** An account with no postings has debit, credit and balance 0. */
  lemma NoPostingsZeroEntry(a: Akun, js: seq<Jurnal>)
    requires forall j :: j in js ==> j.akun != a.id
    ensures EntryFor(a, js) == SaldoEntry(a, 0, 0, 0)
  {
  }

  // ----- two worked scenarios -----

  lemma AkunsOfTwo(a0: Akun, a1: Akun, u: UserId)
    requires a0.user == u && a1.user == u
    ensures AkunsOf([a0, a1], u) == [a0, a1]
  {
    assert [a0, a1][..1] == [a0] && [a0][..0] == [];
    assert AkunsOf([a0], u) == [a0];
  }

  lemma OfAkunOfTwo(j0: Jurnal, j1: Jurnal)
    requires j0.akun != j1.akun
    ensures OfAkun([j0, j1], j0.akun) == [j0] && OfAkun([j0, j1], j1.akun) == [j1]
  {
    assert [j0, j1][..1] == [j0] && [j0][..0] == [];
  }

  lemma SinglePostingSums(j: Jurnal)
    ensures Debits([j]) == j.debit && Kredits([j]) == j.kredit
  {
    assert [j][..0] == [];
  }

  /** The totals of two accounts of one user, each with one posting. */
  lemma TwoAccountTotals(a0: Akun, a1: Akun, j0: Jurnal, j1: Jurnal, u: UserId)
    requires a0.user == u && a1.user == u && a0.id != a1.id
    requires j0.akun == a0.id && j1.akun == a1.id
    ensures var e0 := SaldoEntry(a0, j0.debit, j0.kredit, j0.debit - j0.kredit);
      var e1 := SaldoEntry(a1, j1.debit, j1.kredit, j1.debit - j1.kredit);
      AccountTotalsFor([a0, a1], [j0, j1], u) == Summarize([e0, e1])
  {
    var akuns, js := [a0, a1], [j0, j1];
    AkunsOfTwo(a0, a1, u);
    OfAkunOfTwo(j0, j1);
    SinglePostingSums(j0);
    SinglePostingSums(j1);
    var e0 := SaldoEntry(a0, j0.debit, j0.kredit, j0.debit - j0.kredit);
    var e1 := SaldoEntry(a1, j1.debit, j1.kredit, j1.debit - j1.kredit);
    var entries := EntriesOf(akuns, js);
    assert entries[0] == e0 && entries[1] == e1;
    assert entries == [e0, e1];
  }

  /** The summary of a two-entry list, bucket by bucket. */
  lemma SummarizeTwo(e0: SaldoEntry, e1: SaldoEntry)
    ensures var t := Summarize([e0, e1]);
      && t.totalDebit == e0.debit + e1.debit && t.totalKredit == e0.kredit + e1.kredit
      && t.totalAktiva == Share(e0, Aktiva) + Share(e1, Aktiva)
      && t.totalKewajiban == Share(e0, Kewajiban) + Share(e1, Kewajiban)
      && t.totalModal == Share(e0, Modal) + Share(e1, Modal)
      && t.totalPendapatan == Share(e0, Pendapatan) + Share(e1, Pendapatan)
      && t.totalBeban == Share(e0, Beban) + Share(e1, Beban)
  {
    AppendEntry([], e0);
    AppendEntry([e0], e1);
    assert [] + [e0] == [e0] && [e0] + [e1] == [e0, e1];
  }

  /**
   * Kas (Aset) debited and Modal Saham (Modal) credited with 50,000,000.00:
   * aktiva and modal both hold that amount and the columns agree.
   */
  lemma CapitalInjectionScenario()
    ensures var t := AccountTotalsFor([Akun(1, 7, "Kas", "101", "Aset"), Akun(2, 7, "Modal Saham", "301", "Modal")],
                                      [Jurnal(1, 1, 1, 5_000_000_000, 0), Jurnal(2, 1, 2, 0, 5_000_000_000)], 7);
      && t.totalAktiva == 5_000_000_000 && t.totalModal == 5_000_000_000
      && t.totalKewajiban == 0 && t.totalPendapatan == 0 && t.totalBeban == 0
      && t.totalDebit == 5_000_000_000 && t.totalKredit == 5_000_000_000
  {
    var a0, a1 := Akun(1, 7, "Kas", "101", "Aset"), Akun(2, 7, "Modal Saham", "301", "Modal");
    var j0, j1 := Jurnal(1, 1, 1, 5_000_000_000, 0), Jurnal(2, 1, 2, 0, 5_000_000_000);
    TwoAccountTotals(a0, a1, j0, j1, 7);
    var e0 := SaldoEntry(a0, 5_000_000_000, 0, 5_000_000_000);
    var e1 := SaldoEntry(a1, 0, 5_000_000_000, -5_000_000_000);
    SummarizeTwo(e0, e1);
    assert Destination("Aset", 5_000_000_000) == Aktiva;
    assert Destination("Modal", -5_000_000_000) == Modal;
  }

  /**
   * Beban Gaji (Beban) debited and Bank (Aset) credited with 12,000,000.00:
   * the expense lands in beban and the bank's credit balance in kewajiban.
   */
  lemma OverdrawnBankScenario()
    ensures var t := AccountTotalsFor([Akun(3, 7, "Beban Gaji", "501", "Beban"), Akun(4, 7, "Bank", "102", "Aset")],
                                      [Jurnal(1, 2, 3, 1_200_000_000, 0), Jurnal(2, 2, 4, 0, 1_200_000_000)], 7);
      && t.totalBeban == 1_200_000_000 && t.totalKewajiban == 1_200_000_000
      && t.totalAktiva == 0 && t.totalModal == 0 && t.totalPendapatan == 0
  {
    var a0, a1 := Akun(3, 7, "Beban Gaji", "501", "Beban"), Akun(4, 7, "Bank", "102", "Aset");
    var j0, j1 := Jurnal(1, 2, 3, 1_200_000_000, 0), Jurnal(2, 2, 4, 0, 1_200_000_000);
    TwoAccountTotals(a0, a1, j0, j1, 7);
    var e0 := SaldoEntry(a0, 1_200_000_000, 0, 1_200_000_000);
    var e1 := SaldoEntry(a1, 0, 1_200_000_000, -1_200_000_000);
    SummarizeTwo(e0, e1);
    assert Destination("Beban", 1_200_000_000) == Beban;
    assert Destination("Aset", -1_200_000_000) == Kewajiban;
  }
}

=== FILE: filters.dfy ===
/**
 * The template filters that print amounts: number_format, currency_format
 * and format_decimal with no decimal places. Each takes int() of its
 * argument (a string is first read as a decimal number with its commas
 * removed) and groups the digits in threes with '.' separators.
 */
module Filters {
  import opened Wrappers
  import opened Numerals
  import opened Text

  /** What a template hands a filter. */
  datatype Value =
    | NoneValue
    | Str(s: string)
    | Whole(i: int)        // a Python int
    | Dec(cents: int)      // a two-place Decimal from an amount field, in cents
    | Unsupported          // a value int() refuses with a TypeError

  function Abs(x: int): nat { if x < 0 then -x else x }

  /** int() of a two-place Decimal: the cents truncated toward zero to whole units. */
  function TruncateCents(cents: int): (r: int)
    ensures Abs(r) * 100 <= Abs(cents) < (Abs(r) + 1) * 100
    ensures r > 0 ==> cents > 0
    ensures r < 0 ==> cents < 0
  {
    if cents < 0 then -((-cents) / 100) else cents / 100
  }

  /**
   * float() on an unsigned body: digits, optionally a '.' and more digits,
   * at least one digit in all; the value of the whole part, the fraction
   * dropped. Anything else makes float() raise ValueError (None).
   */
  function UnsignedWhole(body: string): Option<nat>
  {
    var (whole, fraction) :=
      match IndexOf(body, ".", 0)
      case None => (body, "")
      case Some(p) => (body[..p], body[p + 1..]);
    if AllDigits(whole) && AllDigits(fraction) && |whole| + |fraction| >= 1 then Some(ValueOf(whole)) else None
  }

  /** int(float(s)): an optional sign, then an unsigned body; a '-' negates. */
  function ParseTruncated(s: string): Option<int>
  {
    var negative := |s| >= 1 && s[0] == '-';
    var body := if |s| >= 1 && (s[0] == '-' || s[0] == '+') then s[1..] else s;
    match UnsignedWhole(body)
    case None => None
    case Some(m) =>
      var magnitude: int := m;
      Some(if negative then -magnitude else magnitude)
  }

  /**
   * int(value) as the filters apply it; None where it raises ValueError or
   * TypeError. An int is itself, a Decimal loses its cents toward zero, and
   * a string of digits, with or without thousands commas, is the number it
   * spells.
   */
  function IntOf(v: Value): (r: Option<int>)
    ensures v.NoneValue? || v.Unsupported? ==> r.None?
    ensures v.Whole? ==> r == Some(v.i)
    ensures v.Dec? ==> r.Some? && Abs(r.value) * 100 <= Abs(v.cents) < (Abs(r.value) + 1) * 100
                       && (r.value > 0 ==> v.cents > 0) && (r.value < 0 ==> v.cents < 0)
    ensures v.Str? && |RemoveChar(v.s, ',')| >= 1 && AllDigits(RemoveChar(v.s, ','))
            ==> r == Some(ValueOf(RemoveChar(v.s, ',')))
  {
    assert v.Str? && AllDigits(RemoveChar(v.s, ',')) ==> IndexOf(RemoveChar(v.s, ','), ".", 0).None? by {
      if v.Str? && AllDigits(RemoveChar(v.s, ',')) {
        NoDot(RemoveChar(v.s, ','));
      }
    }

    match v
    case NoneValue => None
    case Str(s) => ParseTruncated(RemoveChar(s, ','))
    case Whole(i) => Some(i)
    case Dec(cents) => Some(TruncateCents(cents))
    case Unsupported => None
  }

  /** The digits of a non-negative number in groups of three, separated by '.'. */
  function GroupDigits(d: string): (r: string)
    requires |d| >= 1
    ensures |d| <= |r|
    decreases |d|
  {
    if |d| <= 3 then d else GroupDigits(d[..|d| - 3]) + "." + d[|d| - 3..]
  }

  /** One separator for every full group of three in front of the last group. */
  lemma {:induction false} GroupDigitsLength(d: string)
    requires |d| >= 1
    ensures |GroupDigits(d)| == |d| + (|d| - 1) / 3
    decreases |d|
  {
    if |d| > 3 {
      GroupDigitsLength(d[..|d| - 3]);
    }
  }

  /** A run of digits holds no '.'. */
  lemma NoDot(s: string)
    requires AllDigits(s)
    ensures IndexOf(s, ".", 0).None?
  {
    forall p: nat | true
      ensures !OccursAt(s, ".", p)
    {
      if p + 1 <= |s| {
        assert s[p..p + 1][0] == s[p];
      }
    }
  }

  /** f"{i:,}".replace(',', '.'): the sign, then the grouped digits of the magnitude. */
  function Thousands(i: int): string
  {
    if i < 0 then "-" + GroupDigits(Digits(-i)) else GroupDigits(Digits(i))
  }

  function NumberFormat(v: Value): (r: string)
    ensures v == NoneValue || v == Str("") ==> r == "0"
  {
    if v == NoneValue || v == Str("") then "0"
    else
      match IntOf(v)
      case None => "0"
      case Some(i) => Thousands(i)
  }

  /** currency_format: "Rp " followed by what number_format prints, on every input. */
  function CurrencyFormat(v: Value): (r: string)
    ensures r == "Rp " + NumberFormat(v)
  {
    if v == NoneValue || v == Str("") then "Rp 0"
    else
      match IntOf(v)
      case None => "Rp 0"
      case Some(i) => "Rp " + Thousands(i)
  }

  /** format_decimal(value) with decimal_places = 0. */
  function FormatDecimalWhole(v: Value): (r: string)
    ensures r == NumberFormat(v)
  {
    if v == NoneValue || v == Str("") then "0"
    else
      match IntOf(v)
      case None => "0"
      case Some(i) => Thousands(i)
  }

  /**
   * The shape of a grouped number: counting from the right, every fourth
   * character is '.', every other one a digit.
   */
  predicate GroupedShape(r: string)
  {
    forall k :: 0 <= k < |r| ==> (if (|r| - k) % 4 == 0 then r[k] == '.' else IsDigit(r[k]))
  }

  lemma {:induction false} GroupDigitsShape(d: string)
    requires |d| >= 1 && AllDigits(d)
    ensures GroupedShape(GroupDigits(d))
    decreases |d|
  {
    if |d| > 3 {
      var head, tail := d[..|d| - 3], d[|d| - 3..];
      GroupDigitsShape(head);
      assert AllDigits(tail) by {
        assert forall j :: 0 <= j < |tail| ==> tail[j] == d[|d| - 3 + j];
      }
      GroupShapeAppend(GroupDigits(head), tail);
    }
  }

  /** A separator and a group of three digits after a grouped number keep its shape. */
  lemma GroupShapeAppend(g: string, tail: string)
    requires GroupedShape(g) && |tail| == 3 && AllDigits(tail)
    ensures GroupedShape(g + "." + tail)
  {
    var r := g + "." + tail;
    forall k | 0 <= k < |r|
      ensures if (|r| - k) % 4 == 0 then r[k] == '.' else IsDigit(r[k])
    {
      if k < |g| {
        assert r[k] == g[k] && (|r| - k) % 4 == (|g| - k) % 4;
      } else if k > |g| {
        assert r[k] == tail[k - |g| - 1];
      }
    }
  }

  /** Deleting the separators from a grouped number gives back its digits. */
  lemma {:induction false} UngroupDigits(d: string)
    requires |d| >= 1 && AllDigits(d)
    ensures RemoveChar(GroupDigits(d), '.') == d
    decreases |d|
  {
    if |d| <= 3 {
      RemoveAbsentChar(d, '.');
    } else {
      var head, tail := d[..|d| - 3], d[|d| - 3..];
      assert RemoveChar(GroupDigits(d), '.') == RemoveChar(GroupDigits(head), '.') + tail by {
        assert AllDigits(tail) by {
          assert forall j :: 0 <= j < |tail| ==> tail[j] == d[|d| - 3 + j];
        }
        UngroupGroup(tail);
        assert GroupDigits(d) == GroupDigits(head) + ("." + tail);
        RemoveCharAppend(GroupDigits(head), "." + tail, '.');
      }
      UngroupDigits(head);
      assert head + tail == d;
    }
  }

  /** Deleting the separator in front of a group of digits leaves the group. */
  lemma UngroupGroup(tail: string)
    requires AllDigits(tail)
    ensures RemoveChar("." + tail, '.') == tail
  {
    assert ("." + tail)[1..] == tail;
    RemoveAbsentChar(tail, '.');
  }

  /**
   * Thousands(i) is i's sign followed by a grouped run of digits that
   * starts with a digit, and deleting its separators gives str(i), which
   * int() reads back as i.
   */
  lemma ThousandsMeaning(i: int)
    ensures var r := Thousands(i);
      var g := if i < 0 then r[1..] else r;
      && (i < 0 <==> r[0] == '-')
      && GroupedShape(g) && |g| >= 1 && IsDigit(g[0])
      && RemoveChar(r, '.') == IntToString(i)
      && ParseInt(RemoveChar(r, '.')) == Some(i)
  {
    var d := if i < 0 then Digits(-i) else Digits(i);
    GroupDigitsShape(d);
    UngroupDigits(d);
    var r := Thousands(i);
    GroupDigitsLength(d);
    assert IsDigit(GroupDigits(d)[0]);
    if i < 0 {
      assert r == "-" + GroupDigits(d) && r[1..] == GroupDigits(d);
      RemoveCharAppend("-", GroupDigits(d), '.');
    }
    ParseIntToString(i);
  }

  /** int(float(str(i))) == i. */
  lemma ParseTruncatedWhole(i: int)
    ensures ParseTruncated(IntToString(i)) == Some(i)
  {
    var d := Digits(Abs(i));
    ValueOfDigits(Abs(i));
    NoDot(d);
    assert IntToString(i) == (if i < 0 then "-" else "") + d;
    ParseTruncatedSigned(i, d);
  }

  /** int(float(s)) drops the fraction: "-3.75" reads as -3, "12.0" as 12. */
  lemma ParseTruncatedFraction(i: int, fraction: string)
    requires AllDigits(fraction)
    ensures ParseTruncated(IntToString(i) + "." + fraction) == Some(i)
  {
    var d := Digits(Abs(i));
    ValueOfDigits(Abs(i));
    var body := d + "." + fraction;
    SplitAtDot(d, fraction);
    assert body[..|d|] == d && body[|d| + 1..] == fraction;
    assert IntToString(i) + "." + fraction == (if i < 0 then "-" else "") + body;
    ParseTruncatedSigned(i, body);
  }

  /** A '-' in front of a body reading as |i| when i is negative reads as i. */
  lemma ParseTruncatedSigned(i: int, body: string)
    requires |body| >= 1 && IsDigit(body[0])
    requires UnsignedWhole(body) == Some(Abs(i))
    ensures ParseTruncated((if i < 0 then "-" else "") + body) == Some(i)
  {
    var s := (if i < 0 then "-" else "") + body;
    if i < 0 {
      assert s[1..] == body;
    } else {
      assert s == body;
    }
  }

  /** The first '.' after a run of digits is the one right after it. */
  lemma SplitAtDot(d: string, fraction: string)
    requires AllDigits(d)
    ensures IndexOf(d + "." + fraction, ".", 0) == Some(|d|)
  {
    var body := d + "." + fraction;
    assert OccursAt(body, ".", |d|);
    forall p | 0 <= p < |d|
      ensures !OccursAt(body, ".", p)
    {
      assert body[p..p + 1][0] == d[p];
    }
  }

  /**
   * What number_format prints: "0" where int() fails, and otherwise int(v)
   * grouped, so that its separators removed it reads back as int(v).
   */
  lemma NumberFormatReadsBack(v: Value)
    ensures IntOf(v).None? ==> NumberFormat(v) == "0"
    ensures v != NoneValue && v != Str("") && IntOf(v).Some? ==>
      ParseInt(RemoveChar(NumberFormat(v), '.')) == IntOf(v)
  {
    if v != NoneValue && v != Str("") && IntOf(v).Some? {
      ThousandsMeaning(IntOf(v).value);
    }
  }

  /** 1000000 prints as "1.000.000". */
  lemma MillionExample()
    ensures NumberFormat(Whole(1000000)) == "1.000.000"
  {
    assert Thousands(1000000) == "1.000.000" by {
      MillionDigits();
      assert "1000000"[..4] == "1000" && "1000000"[4..] == "000";
      assert GroupDigits("1000") == "1.000" by {
        assert "1000"[..1] == "1" && "1000"[1..] == "000";
      }
    }
  }

  lemma MillionDigits()
    ensures Digits(1000000) == "1000000"
  {
    assert Digits(1) == "1";
    assert Digits(10) == "10";
    assert Digits(100) == "100";
    assert Digits(1000) == "1000";
    assert Digits(10000) == "10000";
    assert Digits(100000) == "100000";
  }

  /** A Decimal of -1234.56 is truncated toward zero and prints as "Rp -1.234". */
  lemma NegativeDecimalExample()
    ensures CurrencyFormat(Dec(-123456)) == "Rp -1.234"
  {
    assert IntOf(Dec(-123456)) == Some(-1234);
    assert Thousands(-1234) == "-1.234" by {
      ThousandDigits();
      assert GroupDigits("1234") == "1.234" by {
        assert "1234"[..1] == "1" && "1234"[1..] == "234";
      }
    }
  }

  lemma ThousandDigits()
    ensures Digits(1234) == "1234"
  {
    assert Digits(1) == "1";
    assert Digits(12) == "12";
    assert Digits(123) == "123";
  }
}

=== FILE: ledger.dfy ===
/**
 * The ledger's mutating views over the three tables: input_transaksi (the
 * HTML form), the JSON API's create, update and delete, and hapus_akun.
 * Each view runs in one database transaction, so each is one method of the
 * ledger. A transaction is always written as exactly two postings, a debit
 * leg and a credit leg of one amount, so every transaction balances; that
 * makes every user's postings balance, which is what the dashboard's
 * is_balanced reports.
 */
module Ledger {
  import opened Wrappers
  import opened Text
  import opened Models
  import opened Queries
  import opened Engine
  import opened Reports
  import opened Dashboard
  import opened Resolve

  // ----- the invariant -----

  /** Each transaction key names one transaction. */
  predicate TransaksiKeysUnique(ts: seq<Transaksi>)
  {
    forall t1, t2 :: t1 in ts && t2 in ts && t1.id == t2.id ==> t1 == t2
  }

  /** A posting's account belongs to the owner of the posting's transaction. */
  predicate OwnersAgree(db: Db)
  {
    forall j, a, t :: j in db.jurnals && a in db.akuns && t in db.transaksis && a.id == j.akun && t.id == j.transaksi
      ==> a.user == t.user
  }

  /** Every transaction's postings balance: its debits equal its credits. */
  predicate TransaksisBalanced(db: Db)
  {
    forall t :: t in db.transaksis ==> Net(OfTransaksi(db.jurnals, t.id)) == 0
  }

  predicate ValidDb(db: Db)
  {
    && AkunIdsIncreasing(db.akuns) && KodeUnique(db.akuns) && TransaksiKeysUnique(db.transaksis)
    && Referenced(db) && OwnersAgree(db) && TransaksisBalanced(db)
  }

  lemma SameKeySameAkun(akuns: seq<Akun>, a: Akun, b: Akun)
    requires AkunIdsIncreasing(akuns) && a in akuns && b in akuns && a.id == b.id
    ensures a == b
  {
    var i :| 0 <= i < |akuns| && akuns[i] == a;
    var k :| 0 <= k < |akuns| && akuns[k] == b;
    assert i == k;
  }

  // ----- balanced transactions make balanced ledgers -----

  /**
   * If every transaction's postings, restricted to a set of accounts,
   * balance, then all postings restricted to those accounts balance.
   */
  lemma {:induction false} BalancedByTransaksi(js: seq<Jurnal>, ts: seq<Transaksi>, ids: set<nat>)
    requires forall j :: j in js ==> j.transaksi in TransaksiIds(ts)
    requires forall t :: t in ts ==> Net(OfAkunIn(OfTransaksi(js, t.id), ids)) == 0
    ensures Net(OfAkunIn(js, ids)) == 0
    decreases |ts|
  {
    if ts == [] {
      OfAkunInNone(js, ids);
    } else {
      var t, init := ts[|ts| - 1], ts[..|ts| - 1];
      var rest := JurnalsNotOfTransaksi(js, t.id);
      SplitByTransaksi(OfAkunIn(js, ids), t.id);
      OfTransaksiOfAkunIn(js, ids, t.id);
      OfAkunInWithoutTransaksi(js, ids, t.id);
      forall j | j in rest
        ensures j.transaksi in TransaksiIds(init)
      {
        var t' :| t' in ts && t'.id == j.transaksi;
        var k :| 0 <= k < |ts| && ts[k] == t';
        assert k < |ts| - 1 && init[k] == t';
      }
      forall t' | t' in init
        ensures Net(OfAkunIn(OfTransaksi(rest, t'.id), ids)) == 0
      {
        OfTransaksiWithout(js, t.id, t'.id);
        assert t' in ts;
      }
      BalancedByTransaksi(rest, init, ids);
    }
  }

  /**
   * In a valid ledger a transaction's postings lie wholly on its owner's
   * accounts, so restricted to any one user's accounts they balance.
   */
  lemma UserLegsBalance(db: Db, u: UserId, t: Transaksi)
    requires ValidDb(db) && t in db.transaksis
    ensures Net(OfAkunIn(OfTransaksi(db.jurnals, t.id), UserAkunIds(db.akuns, u))) == 0
  {
    var legs := OfTransaksi(db.jurnals, t.id);
    var ids := UserAkunIds(db.akuns, u);
    if t.user == u {
      forall j | j in legs
        ensures j.akun in ids
      {
        var a :| a in db.akuns && a.id == j.akun;
        assert a.user == t.user;
      }
      OfAkunInAll(legs, ids);
    } else {
      forall j | j in legs
        ensures j.akun !in ids
      {
        var a :| a in db.akuns && a.id == j.akun;
        assert a.user != u;
        forall b | b in db.akuns && b.id == j.akun
          ensures b.user != u
        {
          SameKeySameAkun(db.akuns, a, b);
        }
      }
      OfAkunInNone(legs, ids);
    }
  }

  /** In a valid ledger each user's postings balance, and so do all postings together. */
  lemma LedgerBalanced(db: Db, u: UserId)
    requires ValidDb(db)
    ensures Net(OfUser(db.jurnals, db.akuns, u)) == 0
    ensures Net(db.jurnals) == 0
  {
    forall t | t in db.transaksis
      ensures Net(OfAkunIn(OfTransaksi(db.jurnals, t.id), UserAkunIds(db.akuns, u))) == 0
    {
      UserLegsBalance(db, u, t);
    }
    BalancedByTransaksi(db.jurnals, db.transaksis, UserAkunIds(db.akuns, u));
    var all := AkunIds(db.akuns);
    forall t | t in db.transaksis
      ensures Net(OfAkunIn(OfTransaksi(db.jurnals, t.id), all)) == 0
    {
      OfAkunInAll(OfTransaksi(db.jurnals, t.id), all);
    }
    BalancedByTransaksi(db.jurnals, db.transaksis, all);
    OfAkunInAll(db.jurnals, all);
  }

  /** total_aktiva falls short of equation_right by exactly the user's debit-credit gap. */
  lemma EquationGap(akuns: seq<Akun>, js: seq<Jurnal>, u: UserId)
    ensures var data := AccountTotalsFor(akuns, js, u);
      data.totalAktiva - EquationRight(data) == data.totalDebit - data.totalKredit
  {
    SignedBuckets(EntriesOf(AkunsOf(akuns, u), js));
    EntriesBalance(AkunsOf(akuns, u), js);
  }

  /**
   * For every user of a valid ledger the dashboard reports is_balanced with
   * selisih 0, the trial balance's two columns agree, and total_aktiva
   * equals the statement's equation_right.
   */
  lemma ValidLedgerReportsBalanced(db: Db, u: UserId)
    requires ValidDb(db)
    ensures var d := DashboardOf(db.akuns, db.jurnals, u);
      d.isBalanced && d.selisih == 0
    ensures var data := AccountTotalsFor(db.akuns, db.jurnals, u);
      data.totalDebit == data.totalKredit && data.totalAktiva == EquationRight(data)
  {
    LedgerBalanced(db, u);
    EquationGap(db.akuns, db.jurnals, u);
  }

  // ----- the changes the views make -----

  /** The two postings of a transaction: jumlah on the debit account, then on the credit account. */
  function Legs(tid: nat, firstId: nat, debet: nat, kredit: nat, jumlah: int): seq<Jurnal>
  {
    [Jurnal(firstId, tid, debet, jumlah, 0), Jurnal(firstId + 1, tid, kredit, 0, jumlah)]
  }

  lemma LegsOfTransaksi(tid: nat, firstId: nat, debet: nat, kredit: nat, jumlah: int, x: nat)
    ensures OfTransaksi(Legs(tid, firstId, debet, kredit, jumlah), x)
         == if x == tid then Legs(tid, firstId, debet, kredit, jumlah) else []
  {
    var legs := Legs(tid, firstId, debet, kredit, jumlah);
    assert legs[..1] == [legs[0]] && [legs[0]][..0] == [];
    assert OfTransaksi([legs[0]], x) == if x == tid then [legs[0]] else [];
    assert legs == [legs[0]] + [legs[1]];
  }

  /** A pair of legs balances. */
  lemma LegsBalance(tid: nat, firstId: nat, debet: nat, kredit: nat, jumlah: int)
    ensures Net(Legs(tid, firstId, debet, kredit, jumlah)) == 0
  {
    var legs := Legs(tid, firstId, debet, kredit, jumlah);
    TwoLegsNet([], legs[0], legs[1]);
    assert [] + [legs[0], legs[1]] == legs;
  }

  /** Creating a transaction: one new row and its postings. */
  function AddTransaksi(db: Db, t: Transaksi, legs: seq<Jurnal>): Db
  {
    Db(db.akuns, db.transaksis + [t], db.jurnals + legs)
  }

  /** The transactions with tid's date and description set. */
  function Retitle(ts: seq<Transaksi>, tid: nat, tanggal: Date, deskripsi: string): (r: seq<Transaksi>)
    ensures |r| == |ts|
    ensures forall i :: 0 <= i < |ts| ==>
      && r[i].id == ts[i].id && r[i].user == ts[i].user
      && (ts[i].id == tid ==> r[i].tanggal == tanggal && r[i].deskripsi == deskripsi)
      && (ts[i].id != tid ==> r[i] == ts[i])
  {
    if ts == [] then []
    else
      var t := ts[|ts| - 1];
      Retitle(ts[..|ts| - 1], tid, tanggal, deskripsi)
        + [if t.id == tid then t.(tanggal := tanggal, deskripsi := deskripsi) else t]
  }

  /**
   * Updating transaction tid: its postings are replaced by the new legs and
   * its date and description set; every other row is as it was.
   */
  function ReplaceLegs(db: Db, tid: nat, tanggal: Date, deskripsi: string, legs: seq<Jurnal>): (r: Db)
    ensures r.akuns == db.akuns
    ensures forall j :: j in r.jurnals <==> (j in db.jurnals && j.transaksi != tid) || j in legs
    ensures forall t :: t in db.transaksis && t.id != tid ==> t in r.transaksis
  {
    var r := Db(db.akuns, Retitle(db.transaksis, tid, tanggal, deskripsi), JurnalsNotOfTransaksi(db.jurnals, tid) + legs);
    forall t | t in db.transaksis && t.id != tid
      ensures t in r.transaksis
    {
      var i :| 0 <= i < |db.transaksis| && db.transaksis[i] == t;
      assert r.transaksis[i] == t;
    }
    r
  }

  // ----- each change keeps the ledger valid -----

  /**
   * Adding a transaction under a fresh key, owned by the owner of both
   * accounts, with a debit and a credit leg of one amount, keeps the ledger
   * valid.
   */
  lemma AddKeepsValid(db: Db, t: Transaksi, firstId: nat, debet: nat, kredit: nat, jumlah: int)
    requires ValidDb(db)
    requires t.id !in TransaksiIds(db.transaksis)
    requires debet in UserAkunIds(db.akuns, t.user) && kredit in UserAkunIds(db.akuns, t.user)
    ensures ValidDb(AddTransaksi(db, t, Legs(t.id, firstId, debet, kredit, jumlah)))
  {
    var legs := Legs(t.id, firstId, debet, kredit, jumlah);
    assert forall j :: j in legs ==> j.transaksi == t.id && j.akun in UserAkunIds(db.akuns, t.user);
    AddKeepsKeys(db, t, legs);
    AddKeepsOwners(db, t, legs);
    AddKeepsBalanced(db, t, firstId, debet, kredit, jumlah);
  }

  /** A fresh key keeps keys unique; legs on existing accounts keep every posting referenced. */
  lemma AddKeepsKeys(db: Db, t: Transaksi, legs: seq<Jurnal>)
    requires TransaksiKeysUnique(db.transaksis) && Referenced(db)
    requires t.id !in TransaksiIds(db.transaksis)
    requires forall j :: j in legs ==> j.transaksi == t.id && j.akun in UserAkunIds(db.akuns, t.user)
    ensures TransaksiKeysUnique(AddTransaksi(db, t, legs).transaksis) && Referenced(AddTransaksi(db, t, legs))
  {
    var r := AddTransaksi(db, t, legs);
    assert forall x :: x in r.transaksis <==> x in db.transaksis || x == t;
    assert TransaksiIds(r.transaksis) == TransaksiIds(db.transaksis) + {t.id};
    assert forall j :: j in r.jurnals <==> j in db.jurnals || j in legs;
  }

  /** Legs on accounts of the transaction's owner keep owners in agreement. */
  lemma AddKeepsOwners(db: Db, t: Transaksi, legs: seq<Jurnal>)
    requires AkunIdsIncreasing(db.akuns) && OwnersAgree(db) && Referenced(db)
    requires t.id !in TransaksiIds(db.transaksis)
    requires forall j :: j in legs ==> j.transaksi == t.id && j.akun in UserAkunIds(db.akuns, t.user)
    ensures OwnersAgree(AddTransaksi(db, t, legs))
  {
    var r := AddTransaksi(db, t, legs);
    forall j, a, t' | j in r.jurnals && a in r.akuns && t' in r.transaksis && a.id == j.akun && t'.id == j.transaksi
      ensures a.user == t'.user
    {
      if j in legs {
        assert t' == t by {
          assert t' in db.transaksis || t' == t;
        }
        var b :| b in db.akuns && b.user == t.user && b.id == j.akun;
        SameKeySameAkun(db.akuns, a, b);
      } else {
        assert j in db.jurnals && j.transaksi in TransaksiIds(db.transaksis);
        assert t' != t;
      }
    }
  }

  /** A fresh transaction with balancing legs keeps every transaction balanced. */
  lemma AddKeepsBalanced(db: Db, t: Transaksi, firstId: nat, debet: nat, kredit: nat, jumlah: int)
    requires TransaksisBalanced(db) && Referenced(db)
    requires t.id !in TransaksiIds(db.transaksis)
    ensures TransaksisBalanced(AddTransaksi(db, t, Legs(t.id, firstId, debet, kredit, jumlah)))
  {
    var legs := Legs(t.id, firstId, debet, kredit, jumlah);
    var r := AddTransaksi(db, t, legs);
    forall t' | t' in r.transaksis
      ensures Net(OfTransaksi(r.jurnals, t'.id)) == 0
    {
      OfTransaksiAppend(db.jurnals, legs, t'.id);
      LegsOfTransaksi(t.id, firstId, debet, kredit, jumlah, t'.id);
      if t'.id == t.id {
        OfTransaksiNone(db.jurnals, t.id);
        LegsBalance(t.id, firstId, debet, kredit, jumlah);
        assert [] + legs == legs;
      } else {
        assert t' in db.transaksis;
        assert OfTransaksi(db.jurnals, t'.id) + [] == OfTransaksi(db.jurnals, t'.id);
      }
    }
  }

  /** Every retitled row keeps the key and owner of the row it replaces; rows of other keys are untouched. */
  lemma RetitleOrigins(ts: seq<Transaksi>, tid: nat, tanggal: Date, deskripsi: string)
    ensures forall t' :: t' in Retitle(ts, tid, tanggal, deskripsi) ==>
      exists o :: o in ts && o.id == t'.id && o.user == t'.user && (o.id != tid ==> o == t')
  {
    var rs := Retitle(ts, tid, tanggal, deskripsi);
    forall t' | t' in rs
      ensures exists o :: o in ts && o.id == t'.id && o.user == t'.user && (o.id != tid ==> o == t')
    {
      var i :| 0 <= i < |rs| && rs[i] == t';
      assert ts[i] in ts;
    }
  }

  /** Retitling keeps the set of keys and their uniqueness. */
  lemma RetitleKeys(ts: seq<Transaksi>, tid: nat, tanggal: Date, deskripsi: string)
    ensures TransaksiIds(Retitle(ts, tid, tanggal, deskripsi)) == TransaksiIds(ts)
    ensures TransaksiKeysUnique(ts) ==> TransaksiKeysUnique(Retitle(ts, tid, tanggal, deskripsi))
  {
    var rs := Retitle(ts, tid, tanggal, deskripsi);
    assert TransaksiIds(rs) == TransaksiIds(ts) by {
      RetitleOrigins(ts, tid, tanggal, deskripsi);
      forall x | x in TransaksiIds(ts)
        ensures x in TransaksiIds(rs)
      {
        var o :| o in ts && o.id == x;
        var i :| 0 <= i < |ts| && ts[i] == o;
        assert rs[i] in rs;
      }
    }
    if TransaksiKeysUnique(ts) {
      forall t1, t2 | t1 in rs && t2 in rs && t1.id == t2.id
        ensures t1 == t2
      {
        var i :| 0 <= i < |rs| && rs[i] == t1;
        var k :| 0 <= k < |rs| && rs[k] == t2;
        assert ts[i] in ts && ts[k] in ts;
      }
    }
  }

  /** The postings after an update: each transaction's balance as before, the updated one's that of its legs. */
  lemma ReplacedBalance(js: seq<Jurnal>, tid: nat, firstId: nat, debet: nat, kredit: nat, jumlah: int, x: nat)
    ensures var r := JurnalsNotOfTransaksi(js, tid) + Legs(tid, firstId, debet, kredit, jumlah);
      Net(OfTransaksi(r, x)) == if x == tid then 0 else Net(OfTransaksi(js, x))
  {
    var legs := Legs(tid, firstId, debet, kredit, jumlah);
    var rest := JurnalsNotOfTransaksi(js, tid);
    OfTransaksiAppend(rest, legs, x);
    LegsOfTransaksi(tid, firstId, debet, kredit, jumlah, x);
    OfTransaksiWithout(js, tid, x);
    if x == tid {
      LegsBalance(tid, firstId, debet, kredit, jumlah);
      assert [] + legs == legs;
    } else {
      assert OfTransaksi(js, x) + [] == OfTransaksi(js, x);
    }
  }

  lemma ReplaceOwners(db: Db, t: Transaksi, tanggal: Date, deskripsi: string,
                      firstId: nat, debet: nat, kredit: nat, jumlah: int)
    requires ValidDb(db)
    requires t in db.transaksis
    requires debet in UserAkunIds(db.akuns, t.user) && kredit in UserAkunIds(db.akuns, t.user)
    ensures OwnersAgree(ReplaceLegs(db, t.id, tanggal, deskripsi, Legs(t.id, firstId, debet, kredit, jumlah)))
  {
    var tid := t.id;
    var legs := Legs(tid, firstId, debet, kredit, jumlah);
    var r := ReplaceLegs(db, tid, tanggal, deskripsi, legs);
    RetitleOrigins(db.transaksis, tid, tanggal, deskripsi);
    forall j, a, t' | j in r.jurnals && a in r.akuns && t' in r.transaksis && a.id == j.akun && t'.id == j.transaksi
      ensures a.user == t'.user
    {
      var o :| o in db.transaksis && o.id == t'.id && o.user == t'.user && (o.id != tid ==> o == t');
      if j in legs {
        assert o == t;
        var b :| b in db.akuns && b.user == t.user && b.id == j.akun;
        SameKeySameAkun(db.akuns, a, b);
      } else {
        assert j in db.jurnals;
      }
    }
  }

  lemma ReplaceBalanced(db: Db, t: Transaksi, tanggal: Date, deskripsi: string,
                        firstId: nat, debet: nat, kredit: nat, jumlah: int)
    requires TransaksisBalanced(db)
    ensures TransaksisBalanced(ReplaceLegs(db, t.id, tanggal, deskripsi, Legs(t.id, firstId, debet, kredit, jumlah)))
  {
    var r := ReplaceLegs(db, t.id, tanggal, deskripsi, Legs(t.id, firstId, debet, kredit, jumlah));
    RetitleOrigins(db.transaksis, t.id, tanggal, deskripsi);
    forall t' | t' in r.transaksis
      ensures Net(OfTransaksi(r.jurnals, t'.id)) == 0
    {
      ReplacedBalance(db.jurnals, t.id, firstId, debet, kredit, jumlah, t'.id);
      var o :| o in db.transaksis && o.id == t'.id && o.user == t'.user && (o.id != t.id ==> o == t');
    }
  }

  lemma ReplaceReferenced(db: Db, t: Transaksi, tanggal: Date, deskripsi: string,
                          firstId: nat, debet: nat, kredit: nat, jumlah: int)
    requires Referenced(db)
    requires t in db.transaksis
    requires debet in AkunIds(db.akuns) && kredit in AkunIds(db.akuns)
    ensures Referenced(ReplaceLegs(db, t.id, tanggal, deskripsi, Legs(t.id, firstId, debet, kredit, jumlah)))
  {
    RetitleKeys(db.transaksis, t.id, tanggal, deskripsi);
  }

  /**
   * Replacing an owned transaction's legs by a debit and a credit leg of
   * one amount on two of its owner's accounts keeps the ledger valid.
   */
  lemma ReplaceKeepsValid(db: Db, t: Transaksi, tanggal: Date, deskripsi: string,
                          firstId: nat, debet: nat, kredit: nat, jumlah: int)
    requires ValidDb(db)
    requires t in db.transaksis
    requires debet in UserAkunIds(db.akuns, t.user) && kredit in UserAkunIds(db.akuns, t.user)
    ensures ValidDb(ReplaceLegs(db, t.id, tanggal, deskripsi, Legs(t.id, firstId, debet, kredit, jumlah)))
  {
    ReplaceOwners(db, t, tanggal, deskripsi, firstId, debet, kredit, jumlah);
    ReplaceBalanced(db, t, tanggal, deskripsi, firstId, debet, kredit, jumlah);
    ReplaceReferenced(db, t, tanggal, deskripsi, firstId, debet, kredit, jumlah);
    RetitleKeys(db.transaksis, t.id, tanggal, deskripsi);
  }

  /** An update hands out no key: rows keep theirs and the legs take the next two posting keys. */
  lemma ReplaceFresh(db: Db, t: Transaksi, tanggal: Date, deskripsi: string,
                     firstId: nat, debet: nat, kredit: nat, jumlah: int, nextT: nat)
    requires forall t' :: t' in db.transaksis ==> t'.id < nextT
    requires forall j :: j in db.jurnals ==> j.id < firstId
    ensures var r := ReplaceLegs(db, t.id, tanggal, deskripsi, Legs(t.id, firstId, debet, kredit, jumlah));
      && (forall t' :: t' in r.transaksis ==> t'.id < nextT)
      && (forall j :: j in r.jurnals ==> j.id < firstId + 2)
  {
    RetitleOrigins(db.transaksis, t.id, tanggal, deskripsi);
  }

  /** Deleting a transaction, with the postings that cascade from it, keeps the ledger valid. */
  lemma DeleteKeepsValid(db: Db, tid: nat)
    requires ValidDb(db)
    ensures ValidDb(DeleteTransaksi(db, tid))
  {
    var r := DeleteTransaksi(db, tid);
    DeleteTransaksiKeepsReferences(db, tid);
    forall t | t in r.transaksis
      ensures Net(OfTransaksi(r.jurnals, t.id)) == 0
    {
      OfTransaksiWithout(db.jurnals, tid, t.id);
    }
  }

  /** Deleting an account no posting refers to removes that account only, and keeps the ledger valid. */
  lemma RemoveUnusedAkunKeepsValid(db: Db, aid: nat)
    requires ValidDb(db)
    requires forall j :: j in db.jurnals ==> j.akun != aid
    ensures DeleteAkun(db, aid) == Db(AkunsWithout(db.akuns, aid), db.transaksis, db.jurnals)
    ensures ValidDb(DeleteAkun(db, aid))
  {
    JurnalsNotOfAkunUnused(db.jurnals, aid);
    AkunsWithoutKeepsKeys(db.akuns, aid);
    DeleteAkunKeepsReferences(db, aid);
  }

  /** A valid ledger whose keys all lie below the next keys the database hands out. */
  predicate Consistent(db: Db, nextT: nat, nextJ: nat)
  {
    && ValidDb(db)
    && (forall t :: t in db.transaksis ==> t.id < nextT)
    && (forall j :: j in db.jurnals ==> j.id < nextJ)
  }

  lemma RecordConsistent(db: Db, nextT: nat, nextJ: nat, t: Transaksi, debet: nat, kredit: nat, jumlah: int)
    requires Consistent(db, nextT, nextJ) && t.id == nextT
    requires debet in UserAkunIds(db.akuns, t.user) && kredit in UserAkunIds(db.akuns, t.user)
    ensures Consistent(AddTransaksi(db, t, Legs(t.id, nextJ, debet, kredit, jumlah)), nextT + 1, nextJ + 2)
  {
    AddKeepsValid(db, t, nextJ, debet, kredit, jumlah);
  }

  lemma RewriteConsistent(db: Db, nextT: nat, nextJ: nat, t: Transaksi, tanggal: Date, deskripsi: string,
                          debet: nat, kredit: nat, jumlah: int)
    requires Consistent(db, nextT, nextJ) && t in db.transaksis
    requires debet in UserAkunIds(db.akuns, t.user) && kredit in UserAkunIds(db.akuns, t.user)
    ensures Consistent(ReplaceLegs(db, t.id, tanggal, deskripsi, Legs(t.id, nextJ, debet, kredit, jumlah)), nextT, nextJ + 2)
  {
    ReplaceKeepsValid(db, t, tanggal, deskripsi, nextJ, debet, kredit, jumlah);
    ReplaceFresh(db, t, tanggal, deskripsi, nextJ, debet, kredit, jumlah, nextT);
  }

  lemma DeleteConsistent(db: Db, nextT: nat, nextJ: nat, tid: nat)
    requires Consistent(db, nextT, nextJ)
    ensures Consistent(DeleteTransaksi(db, tid), nextT, nextJ)
  {
    DeleteKeepsValid(db, tid);
  }

  lemma RemoveAkunConsistent(db: Db, nextT: nat, nextJ: nat, aid: nat)
    requires Consistent(db, nextT, nextJ)
    requires forall j :: j in db.jurnals ==> j.akun != aid
    ensures DeleteAkun(db, aid) == Db(AkunsWithout(db.akuns, aid), db.transaksis, db.jurnals)
    ensures Consistent(DeleteAkun(db, aid), nextT, nextJ)
  {
    RemoveUnusedAkunKeepsValid(db, aid);
  }

  // ----- the views -----

  /** A TransaksiForm submission after field conversion; None where a field does not convert. */
  datatype TransaksiForm = TransaksiForm(tanggal: Option<Date>, deskripsi: string,
                                         akunDebet: nat, akunKredit: nat, jumlah: Option<int>)

  /**
   * is_valid(): a date, a description that is not blank and at most 255
   * characters once stripped and holds no NUL character, two of the user's
   * accounts, and an amount that fits the 12-digit field. The amount's sign
   * is not checked.
   */
  predicate FormValid(akuns: seq<Akun>, user: UserId, f: TransaksiForm)
  {
    && f.tanggal.Some?
    && 0 < |Strip(f.deskripsi)| <= 255
    && (forall i :: 0 <= i < |f.deskripsi| ==> f.deskripsi[i] != '\0')
    && f.akunDebet in UserAkunIds(akuns, user) && f.akunKredit in UserAkunIds(akuns, user)
    && f.jumlah.Some? && FitsAmountField(f.jumlah.value)
  }

  datatype FormOutcome = FormShown | FormInvalid | SameAkunRefused | Saved(tid: nat)

  /**
   * An API request body after conversion: tanggal is what the flexible
   * date parser made of its field, jumlah is None when float() raised, and
   * a missing jumlah, deskripsi or account field arrives as 0 or "".
   */
  datatype ApiPayload = ApiPayload(tanggal: Option<Date>, deskripsi: string,
                                   akunDebet: string, akunKredit: string, jumlah: Option<int>)

  datatype ApiOutcome =
    | MethodNotAllowed   // 400: not a POST
    | NotFound           // 404: no such transaction of the user
    | InvalidInput       // 400: jumlah does not convert
    | MissingFields      // 400: a field is missing or jumlah is not positive
    | AkunNotFound       // 400: an account value resolves to none of the user's accounts
    | SameAkun           // 400: both values resolve to one account
    | Created(tid: nat)
    | Updated(tid: nat)
    | Deleted

  /** The checks create and update share, and the accounts they resolve to. */
  datatype Checked = Rejected(why: ApiOutcome) | Accepted(tanggal: Date, debet: Akun, kredit: Akun, jumlah: int)

  /** A converted amount, and every field the views require present, with a positive amount. */
  predicate FieldsPresent(p: ApiPayload)
  {
    p.jumlah.Some? && p.tanggal.Some? && p.deskripsi != "" && p.akunDebet != "" && p.akunKredit != "" && p.jumlah.value > 0
  }

  /**
   * The shared checks in the views' order. An accepted request names a
   * date, a description, a positive amount and two different accounts of
   * the user; a rejected one says which check failed.
   */
  function CheckPayload(akuns: seq<Akun>, user: UserId, p: ApiPayload): (r: Checked)
    ensures r.Accepted? ==>
      && p.tanggal == Some(r.tanggal) && p.deskripsi != "" && p.jumlah == Some(r.jumlah) && r.jumlah > 0
      && r.debet in akuns && r.debet.user == user && r.kredit in akuns && r.kredit.user == user
      && r.debet.id != r.kredit.id
    ensures p.jumlah.None? ==> r == Rejected(InvalidInput)
    ensures (&& p.jumlah.Some?
             && (p.tanggal.None? || p.deskripsi == "" || p.akunDebet == "" || p.akunKredit == "" || p.jumlah.value <= 0))
            ==> r == Rejected(MissingFields)
    ensures r.Accepted? ==>
      ResolveAkun(akuns, user, p.akunDebet) == Some(r.debet) && ResolveAkun(akuns, user, p.akunKredit) == Some(r.kredit)
    ensures FieldsPresent(p) ==>
      var d, k := ResolveAkun(akuns, user, p.akunDebet), ResolveAkun(akuns, user, p.akunKredit);
      && ((d.None? || k.None?) <==> r == Rejected(AkunNotFound))
      && (d.Some? && k.Some? && d.value.id == k.value.id <==> r == Rejected(SameAkun))
      && (d.Some? && k.Some? && d.value.id != k.value.id <==> r.Accepted?)
    ensures r.Rejected? ==> r.why in {InvalidInput, MissingFields, AkunNotFound, SameAkun}
  {
    if p.jumlah.None? then Rejected(InvalidInput)
    else if !FieldsPresent(p) then
      Rejected(MissingFields)
    else
      var debet := ResolveAkun(akuns, user, p.akunDebet);
      var kredit := ResolveAkun(akuns, user, p.akunKredit);
      if debet.None? || kredit.None? then Rejected(AkunNotFound)
      else if debet.value.id == kredit.value.id then Rejected(SameAkun)
      else Accepted(p.tanggal.value, debet.value, kredit.value, p.jumlah.value)
  }

  lemma OwnedKey(akuns: seq<Akun>, user: UserId, a: Akun)
    requires a in akuns && a.user == user
    ensures a.id in UserAkunIds(akuns, user)
  {
  }

  datatype HapusOutcome = NoSuchAkun | InUse(count: nat) | Removed | ConfirmShown

  /** A ledger holding a consistent snapshot and its next keys is valid. */
  lemma ValidOnceConsistent(l: Ledger, r: Db, nextT: nat, nextJ: nat)
    requires Consistent(r, nextT, nextJ)
    requires l.akuns == r.akuns && l.transaksis == r.transaksis && l.jurnals == r.jurnals
    requires l.nextTransaksiId == nextT && l.nextJurnalId == nextJ
    ensures l.Valid()
  {
  }

  /** The three tables, with the next keys the database hands out. */
  class Ledger {
    var akuns: seq<Akun>
    var transaksis: seq<Transaksi>
    var jurnals: seq<Jurnal>
    var nextTransaksiId: nat
    var nextJurnalId: nat

    function State(): Db
      reads this
    {
      Db(akuns, transaksis, jurnals)
    }

    predicate Valid()
      reads this
    {
      Consistent(State(), nextTransaksiId, nextJurnalId)
    }

    constructor (db: Db, nextT: nat, nextJ: nat)
      requires ValidDb(db)
      requires forall t :: t in db.transaksis ==> t.id < nextT
      requires forall j :: j in db.jurnals ==> j.id < nextJ
      ensures Valid() && State() == db
      ensures nextTransaksiId == nextT && nextJurnalId == nextJ
    {
      akuns, transaksis, jurnals := db.akuns, db.transaksis, db.jurnals;
      nextTransaksiId, nextJurnalId := nextT, nextJ;
    }

    /** Saves a transaction and its two legs under fresh keys. */
    method Record(t: Transaksi, debet: nat, kredit: nat, jumlah: int)
      requires Valid()
      requires t.id == nextTransaksiId
      requires debet in UserAkunIds(akuns, t.user) && kredit in UserAkunIds(akuns, t.user)
      modifies this
      ensures Valid()
      ensures State() == AddTransaksi(old(State()), t, Legs(t.id, old(nextJurnalId), debet, kredit, jumlah))
      ensures nextTransaksiId == old(nextTransaksiId) + 1 && nextJurnalId == old(nextJurnalId) + 2
    {
      var nt, nj := nextTransaksiId, nextJurnalId;
      var r := AddTransaksi(State(), t, Legs(t.id, nj, debet, kredit, jumlah));
      RecordConsistent(State(), nt, nj, t, debet, kredit, jumlah);
      transaksis, jurnals := r.transaksis, r.jurnals;
      nextTransaksiId, nextJurnalId := nt + 1, nj + 2;
      ValidOnceConsistent(this, r, nt + 1, nj + 2);
    }

    /** Replaces a transaction's postings by two new legs under fresh keys and sets its date and description. */
    method Rewrite(t: Transaksi, tanggal: Date, deskripsi: string, debet: nat, kredit: nat, jumlah: int)
      requires Valid()
      requires t in transaksis
      requires debet in UserAkunIds(akuns, t.user) && kredit in UserAkunIds(akuns, t.user)
      modifies this
      ensures Valid()
      ensures State() == ReplaceLegs(old(State()), t.id, tanggal, deskripsi, Legs(t.id, old(nextJurnalId), debet, kredit, jumlah))
      ensures nextTransaksiId == old(nextTransaksiId) && nextJurnalId == old(nextJurnalId) + 2
    {
      var nt, nj := nextTransaksiId, nextJurnalId;
      var r := ReplaceLegs(State(), t.id, tanggal, deskripsi, Legs(t.id, nj, debet, kredit, jumlah));
      RewriteConsistent(State(), nt, nj, t, tanggal, deskripsi, debet, kredit, jumlah);
      transaksis, jurnals, nextJurnalId := r.transaksis, r.jurnals, nj + 2;
      ValidOnceConsistent(this, r, nt, nj + 2);
    }

    /**
     * input_transaksi: a GET shows the form; an invalid form or one naming
     * the same account twice changes nothing; otherwise the transaction is
     * saved with its stripped description and its two legs.
     */
    method InputTransaksi(user: UserId, isPost: bool, form: TransaksiForm) returns (outcome: FormOutcome)
      requires Valid()
      modifies this
      ensures Valid()
      ensures !isPost ==> outcome == FormShown
      ensures isPost && !FormValid(old(akuns), user, form) ==> outcome == FormInvalid
      ensures isPost && FormValid(old(akuns), user, form) && form.akunDebet == form.akunKredit ==> outcome == SameAkunRefused
      ensures outcome.Saved? <==> isPost && FormValid(old(akuns), user, form) && form.akunDebet != form.akunKredit
      ensures outcome.Saved? ==>
        && outcome.tid == old(nextTransaksiId)
        && State() == AddTransaksi(old(State()),
             Transaksi(outcome.tid, form.tanggal.value, Strip(form.deskripsi), user),
             Legs(outcome.tid, old(nextJurnalId), form.akunDebet, form.akunKredit, form.jumlah.value))
      ensures !outcome.Saved? ==> unchanged(this)
    {
      if !isPost {
        return FormShown;
      }
      if !FormValid(akuns, user, form) {
        return FormInvalid;
      }
      if form.akunDebet == form.akunKredit {
        return SameAkunRefused;
      }
      var tid := nextTransaksiId;
      Record(Transaksi(tid, form.tanggal.value, Strip(form.deskripsi), user),
             form.akunDebet, form.akunKredit, form.jumlah.value);
      outcome := Saved(tid);
    }

    /** transaksi_api_create: on acceptance one transaction and its two legs are added. */
    method ApiCreate(user: UserId, isPost: bool, p: ApiPayload) returns (outcome: ApiOutcome)
      requires Valid()
      modifies this
      ensures Valid()
      ensures !isPost ==> outcome == MethodNotAllowed
      ensures isPost && CheckPayload(old(akuns), user, p).Rejected? ==> outcome == CheckPayload(old(akuns), user, p).why
      ensures outcome.Created? <==> isPost && CheckPayload(old(akuns), user, p).Accepted?
      ensures outcome.Created? ==>
        var c := CheckPayload(old(akuns), user, p);
        && outcome.tid == old(nextTransaksiId)
        && State() == AddTransaksi(old(State()), Transaksi(outcome.tid, c.tanggal, p.deskripsi, user),
                                   Legs(outcome.tid, old(nextJurnalId), c.debet.id, c.kredit.id, c.jumlah))
      ensures !outcome.Created? ==> unchanged(this)
    {
      if !isPost {
        return MethodNotAllowed;
      }
      var c := CheckPayload(akuns, user, p);
      if c.Rejected? {
        return c.why;
      }
      OwnedKey(akuns, user, c.debet);
      OwnedKey(akuns, user, c.kredit);
      var tid := nextTransaksiId;
      Record(Transaksi(tid, c.tanggal, p.deskripsi, user), c.debet.id, c.kredit.id, c.jumlah);
      outcome := Created(tid);
    }

    /**
     * transaksi_api_update: a transaction of the user is required (404
     * otherwise); on acceptance its postings are replaced by the two new
     * legs and its date and description set, and nothing else changes.
     */
    method ApiUpdate(user: UserId, isPost: bool, tid: nat, p: ApiPayload) returns (outcome: ApiOutcome)
      requires Valid()
      modifies this
      ensures Valid()
      ensures !isPost ==> outcome == MethodNotAllowed
      ensures isPost && (forall t :: t in old(transaksis) ==> t.id != tid || t.user != user) ==> outcome == NotFound
      ensures (&& isPost && (exists t :: t in old(transaksis) && t.id == tid && t.user == user)
               && CheckPayload(old(akuns), user, p).Rejected?)
              ==> outcome == CheckPayload(old(akuns), user, p).why
      ensures outcome.Updated? <==> isPost && (exists t :: t in old(transaksis) && t.id == tid && t.user == user)
                                    && CheckPayload(old(akuns), user, p).Accepted?
      ensures outcome.Updated? ==> outcome.tid == tid
      ensures outcome.Updated? ==>
        var c := CheckPayload(old(akuns), user, p);
        && c.Accepted?
        && State() == ReplaceLegs(old(State()), tid, c.tanggal, p.deskripsi,
                                  Legs(tid, old(nextJurnalId), c.debet.id, c.kredit.id, c.jumlah))
        && nextJurnalId == old(nextJurnalId) + 2
      ensures !outcome.Updated? ==> unchanged(this)
    {
      if !isPost {
        return MethodNotAllowed;
      }
      if !exists t :: t in transaksis && t.id == tid && t.user == user {
        return NotFound;
      }
      var t :| t in transaksis && t.id == tid && t.user == user;
      var c := CheckPayload(akuns, user, p);
      if c.Rejected? {
        return c.why;
      }
      OwnedKey(akuns, user, c.debet);
      OwnedKey(akuns, user, c.kredit);
      Rewrite(t, c.tanggal, p.deskripsi, c.debet.id, c.kredit.id, c.jumlah);
      outcome := Updated(tid);
    }

    /** transaksi_api_delete: the user's transaction and every posting of it are removed. */
    method ApiDelete(user: UserId, isPost: bool, tid: nat) returns (outcome: ApiOutcome)
      requires Valid()
      modifies this
      ensures Valid()
      ensures !isPost ==> outcome == MethodNotAllowed
      ensures isPost && (forall t :: t in old(transaksis) ==> t.id != tid || t.user != user) ==> outcome == NotFound
      ensures outcome == Deleted <==> isPost && exists t :: t in old(transaksis) && t.id == tid && t.user == user
      ensures outcome == Deleted ==> State() == DeleteTransaksi(old(State()), tid)
      ensures outcome != Deleted ==> unchanged(this)
    {
      if !isPost {
        return MethodNotAllowed;
      }
      if !exists t :: t in transaksis && t.id == tid && t.user == user {
        return NotFound;
      }
      var r := DeleteTransaksi(State(), tid);
      DeleteConsistent(State(), nextTransaksiId, nextJurnalId, tid);
      transaksis, jurnals := r.transaksis, r.jurnals;
      ValidOnceConsistent(this, r, nextTransaksiId, nextJurnalId);
      outcome := Deleted;
    }

    /**
     * hapus_akun: the user's account is required (404 otherwise); while any
     * posting refers to it nothing changes; otherwise a POST removes that
     * account alone and a GET asks for confirmation.
     */
    method HapusAkun(user: UserId, aid: nat, isPost: bool) returns (outcome: HapusOutcome)
      requires Valid()
      modifies this
      ensures Valid()
      ensures (forall a :: a in old(akuns) ==> a.id != aid || a.user != user) <==> outcome == NoSuchAkun
      ensures outcome != NoSuchAkun && OfAkun(old(jurnals), aid) != [] ==> outcome == InUse(|OfAkun(old(jurnals), aid)|)
      ensures outcome.InUse? ==> OfAkun(old(jurnals), aid) != []
      ensures outcome == Removed <==> outcome != NoSuchAkun && isPost && OfAkun(old(jurnals), aid) == []
      ensures outcome == ConfirmShown <==> outcome != NoSuchAkun && !isPost && OfAkun(old(jurnals), aid) == []
      ensures outcome == Removed ==>
        && State() == DeleteAkun(old(State()), aid)
        && akuns == AkunsWithout(old(akuns), aid) && transaksis == old(transaksis) && jurnals == old(jurnals)
      ensures outcome != Removed ==> unchanged(this)
    {
      if !exists a :: a in akuns && a.id == aid && a.user == user {
        return NoSuchAkun;
      }
      var jurnalCount := |OfAkun(jurnals, aid)|;
      if jurnalCount > 0 {
        return InUse(jurnalCount);
      }
      if isPost {
        assert OfAkun(jurnals, aid) == [];
        RemoveAkunConsistent(State(), nextTransaksiId, nextJurnalId, aid);
        var r := DeleteAkun(State(), aid);
        akuns := r.akuns;
        ValidOnceConsistent(this, r, nextTransaksiId, nextJurnalId);
        return Removed;
      }
      return ConfirmShown;
    }
  }
}

=== FILE: legacy.dfy ===
/**
 * The older neraca_saldo and laporan_keuangan views, no longer routed:
 * the trial balance that also sums its two columns, and the statement
 * without the earnings line, cash flow or ratios. Both agree with the
 * routed views on everything they share.
 */
module LegacyReports {
  import opened Models
  import opened Engine
  import opened Reports

  function DebetTotal(rows: seq<TrialRow>): int
  {
    if rows == [] then 0 else DebetTotal(rows[..|rows| - 1]) + rows[|rows| - 1].totalDebet
  }

  function KreditTotal(rows: seq<TrialRow>): int
  {
    if rows == [] then 0 else KreditTotal(rows[..|rows| - 1]) + rows[|rows| - 1].totalKredit
  }

  lemma TotalsAppend(rows: seq<TrialRow>, row: TrialRow)
    ensures DebetTotal(rows + [row]) == DebetTotal(rows) + row.totalDebet
    ensures KreditTotal(rows + [row]) == KreditTotal(rows) + row.totalKredit
  {
    assert (rows + [row])[..|rows|] == rows;
  }

  /** The column totals of trial-balance lines differ by the entries' debit minus credit. */
  lemma {:induction false} ColumnGap(entries: seq<SaldoEntry>)
    ensures DebetTotal(TrialRows(entries)) - KreditTotal(TrialRows(entries))
         == DebitColumn(entries) - KreditColumn(entries)
    ensures DebetTotal(TrialRows(entries)) >= 0 && KreditTotal(TrialRows(entries)) >= 0
  {
    if entries != [] {
      var init := entries[..|entries| - 1];
      ColumnGap(init);
      assert TrialRows(entries)[..|entries| - 1] == TrialRows(init);
    }
  }

  datatype LegacyNeraca = LegacyNeraca(neracaData: seq<TrialRow>, totalDebet: int, totalKredit: int)

  /**
   * The older neraca_saldo: the routed view's lines, plus the sums of the
   * two columns, which are equal exactly when the user's debit and credit
   * totals are.
   */
  method NeracaSaldoLegacy(akuns: seq<Akun>, js: seq<Jurnal>, user: UserId) returns (v: LegacyNeraca)
    ensures var data := AccountTotalsFor(akuns, js, user);
      && v.neracaData == TrialRows(data.saldo)
      && v.totalDebet >= 0 && v.totalKredit >= 0
      && v.totalDebet - v.totalKredit == data.totalDebit - data.totalKredit
  {
    var data := ComputeAccountTotalsForUser(akuns, js, user);
    v := TrialColumns(data.saldo);
  }

  /** The lines of the trial balance with the running sums of their two columns. */
  method TrialColumns(saldo: seq<SaldoEntry>) returns (v: LegacyNeraca)
    ensures v.neracaData == TrialRows(saldo)
    ensures v.totalDebet >= 0 && v.totalKredit >= 0
    ensures v.totalDebet - v.totalKredit == DebitColumn(saldo) - KreditColumn(saldo)
  {
    var neracaData: seq<TrialRow> := [];
    var totalDebet := 0;
    var totalKredit := 0;
    for i := 0 to |saldo|
      invariant neracaData == TrialRows(saldo[..i])
      invariant totalDebet == DebetTotal(neracaData) && totalKredit == KreditTotal(neracaData)
    {
      var entry := saldo[i];
      var debit := entry.debit;
      var kredit := entry.kredit;
      var dispDebet, dispKredit;
      if debit >= kredit {
        dispDebet, dispKredit := debit - kredit, 0;
      } else {
        dispDebet, dispKredit := 0, kredit - debit;
      }
      var row := TrialRow(entry.akun.kode, entry.akun.nama, dispDebet, dispKredit);
      assert row == TrialRowOf(entry);
      assert TrialRows(saldo[..i + 1]) == neracaData + [row] by {
        assert saldo[..i + 1][..i] == saldo[..i];
      }
      TotalsAppend(neracaData, row);
      neracaData := neracaData + [row];
      totalDebet := totalDebet + dispDebet;
      totalKredit := totalKredit + dispKredit;
    }
    assert saldo[..|saldo|] == saldo;
    ColumnGap(saldo);
    v := LegacyNeraca(neracaData, totalDebet, totalKredit);
  }

  datatype LegacyLaporan = LegacyLaporan(
    pendapatan: seq<StatementRow>, beban: seq<StatementRow>, aktiva: seq<StatementRow>,
    pasiva: seq<StatementRow>, modal: seq<StatementRow>,
    totalPendapatan: int, totalBeban: int, totalAktiva: int, totalPasiva: int, totalModal: int,
    labaRugi: int)

  /**
   * The older laporan_keuangan: the lists grouped as the views write them,
   * the engine's totals and the net income.
   */
  method LaporanKeuanganLegacy(akuns: seq<Akun>, js: seq<Jurnal>, user: UserId) returns (v: LegacyLaporan)
    ensures var data := AccountTotalsFor(akuns, js, user);
      var g := GroupingOf(data.saldo, DisplayAssetTypes);
      && v.pendapatan == g.pendapatan && v.beban == g.beban && v.aktiva == g.aktiva
      && v.pasiva == g.kewajiban && v.modal == g.modal
      && v.totalPendapatan == data.totalPendapatan && v.totalBeban == data.totalBeban
      && v.totalAktiva == data.totalAktiva && v.totalPasiva == data.totalKewajiban
      && v.totalModal == data.totalModal && v.labaRugi == NetIncome(data)
  {
    var data := ComputeAccountTotalsForUser(akuns, js, user);
    AssetLabelsSeparate();
    var g := GroupStatement(data.saldo, DisplayAssetTypes);
    v := LegacyLaporan(g.pendapatan, g.beban, g.aktiva, g.kewajiban, g.modal,
                       data.totalPendapatan, data.totalBeban, data.totalAktiva,
                       data.totalKewajiban, data.totalModal, data.totalPendapatan - data.totalBeban);
  }

  /**
   * Against the routed view's statement for the same totals: the liabilities
   * are its kewajiban, the net income is its net_income, and its modal list
   * is the older one with the earnings line appended when that is not zero.
   */
  lemma LegacyMatchesRouted(data: AccountTotals, v: LegacyLaporan)
    requires var g := GroupingOf(data.saldo, DisplayAssetTypes);
      && v.pendapatan == g.pendapatan && v.beban == g.beban && v.aktiva == g.aktiva
      && v.pasiva == g.kewajiban && v.modal == g.modal
      && v.totalPendapatan == data.totalPendapatan && v.totalBeban == data.totalBeban
      && v.totalAktiva == data.totalAktiva && v.totalPasiva == data.totalKewajiban
      && v.totalModal == data.totalModal && v.labaRugi == NetIncome(data)
    ensures var r := StatementOf(data);
      && r.lists.kewajiban == v.pasiva && r.lists.aktiva == v.aktiva
      && r.lists.pendapatan == v.pendapatan && r.lists.beban == v.beban
      && r.lists.modal == ModalWithEarnings(v.modal, v.labaRugi)
      && (v.labaRugi == 0 ==> r.lists.modal == v.modal)
      && r.netIncome == v.labaRugi && r.totalKewajiban == v.totalPasiva
      && r.totalModalDisplay == v.totalModal + v.labaRugi
  {
  }
}

=== FILE: models.dfy ===
/**
 * The three bookkeeping tables: accounts (Akun), transactions (Transaksi)
 * and journal postings (Jurnal), the per-user uniqueness of account codes,
 * and what each CASCADE rule removes when a row is deleted.
 *
 * Amounts are DecimalField(max_digits=12, decimal_places=2) values; they are
 * held exactly as integer cents. Primary keys are naturals; an instance that
 * was never saved (Django's pk None) is given id 0.
 */
module Models {
  type UserId = nat

  /** The largest magnitude a 12-digit, 2-decimal field holds, in cents. */
  const MaxCents: int := 999_999_999_999

  predicate FitsAmountField(cents: int)
  {
    -MaxCents <= cents <= MaxCents
  }

  /** A calendar date; its parsing and formatting are not modelled. */
  datatype Date = Date(year: int, month: int, day: int)

  datatype Akun = Akun(id: nat, user: UserId, nama: string, kode: string, tipe: string)

  datatype Transaksi = Transaksi(id: nat, tanggal: Date, deskripsi: string, user: UserId)

  /** One posting line; debit and kredit default to 0. */
  datatype Jurnal = Jurnal(id: nat, transaksi: nat, akun: nat, debit: int := 0, kredit: int := 0)

  /** An account's display string, `kode - nama`. */
  function AkunStr(a: Akun): string
  {
    a.kode + " - " + a.nama
  }

  /** (user, kode) is unique among accounts. */
  predicate KodeUnique(akuns: seq<Akun>)
  {
    forall i, j :: 0 <= i < j < |akuns| && akuns[i].user == akuns[j].user ==> akuns[i].kode != akuns[j].kode
  }

  /** Account primary keys in table order, strictly increasing (hence unique). */
  predicate AkunIdsIncreasing(akuns: seq<Akun>)
  {
    forall i, j :: 0 <= i < j < |akuns| ==> akuns[i].id < akuns[j].id
  }

  function AkunIds(akuns: seq<Akun>): set<nat>
  {
    set a | a in akuns :: a.id
  }

  function TransaksiIds(ts: seq<Transaksi>): set<nat>
  {
    set t | t in ts :: t.id
  }

  /** A snapshot of the three tables. */
  datatype Db = Db(akuns: seq<Akun>, transaksis: seq<Transaksi>, jurnals: seq<Jurnal>)

  /** Every posting refers to an existing transaction and an existing account. */
  predicate Referenced(db: Db)
  {
    forall j :: j in db.jurnals ==> j.akun in AkunIds(db.akuns) && j.transaksi in TransaksiIds(db.transaksis)
  }

  // ----- what survives a delete -----

  function TransaksisWithout(ts: seq<Transaksi>, tid: nat): (r: seq<Transaksi>)
    ensures forall t :: t in r <==> t in ts && t.id != tid
  {
    if ts == [] then []
    else
      var rest := TransaksisWithout(ts[..|ts| - 1], tid);
      var t := ts[|ts| - 1];
      if t.id != tid then rest + [t] else rest
  }

  function AkunsWithout(akuns: seq<Akun>, aid: nat): (r: seq<Akun>)
    ensures forall a :: a in r <==> a in akuns && a.id != aid
  {
    if akuns == [] then []
    else
      var rest := AkunsWithout(akuns[..|akuns| - 1], aid);
      var a := akuns[|akuns| - 1];
      if a.id != aid then rest + [a] else rest
  }

  /** The last account's key is above, and its code apart from, every earlier one of its user. */
  lemma LastAkunApart(akuns: seq<Akun>)
    requires |akuns| > 0
    ensures var a := akuns[|akuns| - 1];
      && (AkunIdsIncreasing(akuns) ==> forall b :: b in akuns[..|akuns| - 1] ==> b.id < a.id)
      && (KodeUnique(akuns) ==> forall b :: b in akuns[..|akuns| - 1] && b.user == a.user ==> b.kode != a.kode)
  {
    var init := akuns[..|akuns| - 1];
    forall b | b in init
      ensures AkunIdsIncreasing(akuns) ==> b.id < akuns[|akuns| - 1].id
      ensures KodeUnique(akuns) && b.user == akuns[|akuns| - 1].user ==> b.kode != akuns[|akuns| - 1].kode
    {
      var k :| 0 <= k < |init| && init[k] == b;
      assert akuns[k] == b;
    }
  }

  lemma AppendAkunApart(rest: seq<Akun>, a: Akun)
    ensures AkunIdsIncreasing(rest) && (forall b :: b in rest ==> b.id < a.id) ==> AkunIdsIncreasing(rest + [a])
    ensures KodeUnique(rest) && (forall b :: b in rest && b.user == a.user ==> b.kode != a.kode) ==> KodeUnique(rest + [a])
  {
    var r := rest + [a];
    forall i | 0 <= i < |rest|
      ensures r[i] == rest[i]
    {
    }
  }

  /** Removing an account keeps the keys increasing and the codes unique. */
  lemma {:induction false} AkunsWithoutKeepsKeys(akuns: seq<Akun>, aid: nat)
    ensures AkunIdsIncreasing(akuns) ==> AkunIdsIncreasing(AkunsWithout(akuns, aid))
    ensures KodeUnique(akuns) ==> KodeUnique(AkunsWithout(akuns, aid))
  {
    if akuns != [] {
      var init := akuns[..|akuns| - 1];
      AkunsWithoutKeepsKeys(init, aid);
      LastAkunApart(akuns);
      AppendAkunApart(AkunsWithout(init, aid), akuns[|akuns| - 1]);
      assert AkunIdsIncreasing(akuns) ==> AkunIdsIncreasing(init);
      assert KodeUnique(akuns) ==> KodeUnique(init);
    }
  }

  /** The postings left after the CASCADE from deleting transaction tid. */
  function JurnalsNotOfTransaksi(js: seq<Jurnal>, tid: nat): (r: seq<Jurnal>)
    ensures forall j :: j in r <==> j in js && j.transaksi != tid
  {
    if js == [] then []
    else
      var rest := JurnalsNotOfTransaksi(js[..|js| - 1], tid);
      var j := js[|js| - 1];
      if j.transaksi != tid then rest + [j] else rest
  }

  /** The postings left after the CASCADE from deleting account aid. */
  function JurnalsNotOfAkun(js: seq<Jurnal>, aid: nat): (r: seq<Jurnal>)
    ensures forall j :: j in r <==> j in js && j.akun != aid
  {
    if js == [] then []
    else
      var rest := JurnalsNotOfAkun(js[..|js| - 1], aid);
      var j := js[|js| - 1];
      if j.akun != aid then rest + [j] else rest
  }

  /** Deleting an account no posting refers to cascades to nothing. */
  lemma {:induction false} JurnalsNotOfAkunUnused(js: seq<Jurnal>, aid: nat)
    requires forall j :: j in js ==> j.akun != aid
    ensures JurnalsNotOfAkun(js, aid) == js
  {
    if js != [] {
      JurnalsNotOfAkunUnused(js[..|js| - 1], aid);
      assert js == js[..|js| - 1] + [js[|js| - 1]];
    }
  }

  /** Deleting a transaction deletes every posting that refers to it. */
  function DeleteTransaksi(db: Db, tid: nat): Db
  {
    Db(db.akuns, TransaksisWithout(db.transaksis, tid), JurnalsNotOfTransaksi(db.jurnals, tid))
  }

  /** Deleting an account deletes every posting that refers to it. */
  function DeleteAkun(db: Db, aid: nat): Db
  {
    Db(AkunsWithout(db.akuns, aid), db.transaksis, JurnalsNotOfAkun(db.jurnals, aid))
  }

  lemma DeleteTransaksiKeepsReferences(db: Db, tid: nat)
    requires Referenced(db)
    ensures Referenced(DeleteTransaksi(db, tid))
    ensures forall j :: j in DeleteTransaksi(db, tid).jurnals ==> j.transaksi != tid
  {
    var r := DeleteTransaksi(db, tid);
    forall j | j in r.jurnals
      ensures j.akun in AkunIds(r.akuns) && j.transaksi in TransaksiIds(r.transaksis)
    {
      var t :| t in db.transaksis && t.id == j.transaksi;
      assert t in r.transaksis;
    }
  }

  lemma DeleteAkunKeepsReferences(db: Db, aid: nat)
    requires Referenced(db)
    ensures Referenced(DeleteAkun(db, aid))
    ensures forall j :: j in DeleteAkun(db, aid).jurnals ==> j.akun != aid
  {
    var r := DeleteAkun(db, aid);
    forall j | j in r.jurnals
      ensures j.akun in AkunIds(r.akuns) && j.transaksi in TransaksiIds(r.transaksis)
    {
      var a :| a in db.akuns && a.id == j.akun;
      assert a in r.akuns;
    }
  }

  // ----- deleting a user -----

  function AkunsNotOf(akuns: seq<Akun>, u: UserId): (r: seq<Akun>)
    ensures forall a :: a in r <==> a in akuns && a.user != u
  {
    if akuns == [] then []
    else
      var rest := AkunsNotOf(akuns[..|akuns| - 1], u);
      var a := akuns[|akuns| - 1];
      if a.user != u then rest + [a] else rest
  }

  function TransaksisNotOf(ts: seq<Transaksi>, u: UserId): (r: seq<Transaksi>)
    ensures forall t :: t in r <==> t in ts && t.user != u
  {
    if ts == [] then []
    else
      var rest := TransaksisNotOf(ts[..|ts| - 1], u);
      var t := ts[|ts| - 1];
      if t.user != u then rest + [t] else rest
  }

  /** The postings that refer to none of the given accounts and transactions. */
  function JurnalsAvoiding(js: seq<Jurnal>, akunIds: set<nat>, transaksiIds: set<nat>): (r: seq<Jurnal>)
    ensures forall j :: j in r <==> j in js && j.akun !in akunIds && j.transaksi !in transaksiIds
  {
    if js == [] then []
    else
      var rest := JurnalsAvoiding(js[..|js| - 1], akunIds, transaksiIds);
      var j := js[|js| - 1];
      if j.akun !in akunIds && j.transaksi !in transaksiIds then rest + [j] else rest
  }

  /**
   * Deleting a user deletes the user's accounts and transactions, and
   * through their own CASCADE rules every posting that refers to one of them.
   */
  function DeleteUser(db: Db, u: UserId): Db
  {
    var goneAkuns := set a | a in db.akuns && a.user == u :: a.id;
    var goneTransaksis := set t | t in db.transaksis && t.user == u :: t.id;
    Db(AkunsNotOf(db.akuns, u), TransaksisNotOf(db.transaksis, u),
       JurnalsAvoiding(db.jurnals, goneAkuns, goneTransaksis))
  }

  /**
   * After deleting user u nothing of u's remains, nothing of anyone else's
   * is removed, and no posting is left dangling.
   */
  lemma DeleteUserCascades(db: Db, u: UserId)
    requires Referenced(db)
    ensures var r := DeleteUser(db, u);
      && (forall a :: a in r.akuns <==> a in db.akuns && a.user != u)
      && (forall t :: t in r.transaksis <==> t in db.transaksis && t.user != u)
      && Referenced(r)
  {
    var r := DeleteUser(db, u);
    forall j | j in r.jurnals
      ensures j.akun in AkunIds(r.akuns) && j.transaksi in TransaksiIds(r.transaksis)
    {
      var a :| a in db.akuns && a.id == j.akun;
      var t :| t in db.transaksis && t.id == j.transaksi;
      assert a in r.akuns && t in r.transaksis;
    }
  }
}

=== FILE: numerals.dfy ===
/**
 * Decimal numerals: Python's str() of a non-negative int, the value a digit
 * string denotes, and int() on a string of the form [sign]digits.
 */
module Numerals {
  import opened Wrappers

  predicate IsDigit(c: char) { '0' <= c <= '9' }

  predicate AllDigits(s: string) { forall i :: 0 <= i < |s| ==> IsDigit(s[i]) }

  function DigitChar(d: nat): (c: char)
    requires d < 10
    ensures IsDigit(c)
  {
    ('0' as int + d) as char
  }

  function DigitValue(c: char): (d: nat)
    requires IsDigit(c)
    ensures d < 10 && DigitChar(d) == c
  {
    c as int - '0' as int
  }

  /** The decimal representation of n, without leading zeros (Python's str(n)). */
  function Digits(n: nat): (s: string)
    ensures |s| >= 1 && AllDigits(s)
    ensures |s| > 1 ==> s[0] != '0'
    decreases n
  {
    if n < 10 then [DigitChar(n)] else Digits(n / 10) + [DigitChar(n % 10)]
  }

  /** The number a string of decimal digits denotes; the empty string denotes 0. */
  function ValueOf(s: string): nat
    requires AllDigits(s)
  {
    if s == [] then 0 else ValueOf(s[..|s| - 1]) * 10 + DigitValue(s[|s| - 1])
  }

  /** Reading back the representation of n gives n. */
  lemma {:induction false} ValueOfDigits(n: nat)
    ensures ValueOf(Digits(n)) == n
    decreases n
  {
    var s := Digits(n);
    if n >= 10 {
      ValueOfDigits(n / 10);
      assert s[..|s| - 1] == Digits(n / 10);
    }
  }

  lemma {:induction false} ZeroValueHasZeroLead(s: string)
    requires AllDigits(s) && |s| >= 1 && ValueOf(s) == 0
    ensures s[0] == '0'
  {
    if |s| > 1 {
      ZeroValueHasZeroLead(s[..|s| - 1]);
    }
  }

  /** A canonical digit string (no leading zero) is the representation of its value. */
  lemma {:induction false} DigitsOfValue(s: string)
    requires AllDigits(s) && |s| >= 1 && (|s| > 1 ==> s[0] != '0')
    ensures Digits(ValueOf(s)) == s
  {
    if |s| > 1 {
      var init := s[..|s| - 1];
      if ValueOf(init) == 0 {
        ZeroValueHasZeroLead(init);
      }
      DigitsOfValue(init);
      var n := ValueOf(s);
      assert n / 10 == ValueOf(init) && n % 10 == DigitValue(s[|s| - 1]);
      assert s == init + [s[|s| - 1]];
    }
  }

  /** Python's str() of an int. */
  function IntToString(i: int): string
  {
    if i < 0 then "-" + Digits(-i) else Digits(i)
  }

  /**
   * Python's int() on a string, for the form an optional '+' or '-' followed
   * by one or more ASCII digits; any other string is refused (None).
   */
  function ParseInt(s: string): (r: Option<int>)
    ensures r.Some? ==> |s| >= 1 && (AllDigits(s) || AllDigits(s[1..]))
  {
    if |s| >= 2 && (s[0] == '-' || s[0] == '+') && AllDigits(s[1..]) then
      var magnitude: int := ValueOf(s[1..]);
      Some(if s[0] == '-' then -magnitude else magnitude)
    else if |s| >= 1 && AllDigits(s) then
      Some(ValueOf(s))
    else
      None
  }

  /** int(str(i)) == i. */
  lemma {:induction false} ParseIntToString(i: int)
    ensures ParseInt(IntToString(i)) == Some(i)
  {
    var s := IntToString(i);
    if i < 0 {
      var d := Digits(-i);
      assert s == "-" + d && s[0] == '-' && s[1..] == d;
      ValueOfDigits(-i);
    } else {
      assert s == Digits(i) && IsDigit(s[0]);
      ValueOfDigits(i);
    }
  }
}

=== FILE: queries.dfy ===
/**
 * The ORM queries the views run, over the in-memory tables: the filters
 * `Jurnal.objects.filter(akun=...)`, `filter(transaksi=...)`,
 * `filter(akun__user=...)`, `Akun.objects.filter(user=...)`, and the
 * `Coalesce(Sum(...), 0)` aggregates over a filtered posting list.
 */
module Queries {
  import opened Models

  /** Coalesce(Sum('debit'), 0): the debit column total, 0 for no postings. */
  function Debits(js: seq<Jurnal>): int
  {
    if js == [] then 0 else Debits(js[..|js| - 1]) + js[|js| - 1].debit
  }

  /** Coalesce(Sum('kredit'), 0). */
  function Kredits(js: seq<Jurnal>): int
  {
    if js == [] then 0 else Kredits(js[..|js| - 1]) + js[|js| - 1].kredit
  }

  /** Debits minus credits of a posting list. */
  function Net(js: seq<Jurnal>): int
  {
    Debits(js) - Kredits(js)
  }

  /** Jurnal.objects.filter(akun=aid), in table order. */
  function OfAkun(js: seq<Jurnal>, aid: nat): (r: seq<Jurnal>)
    ensures forall j :: j in r <==> j in js && j.akun == aid
    ensures |r| <= |js|
  {
    if js == [] then []
    else
      var rest := OfAkun(js[..|js| - 1], aid);
      var j := js[|js| - 1];
      if j.akun == aid then rest + [j] else rest
  }

  /**
   * filter(akun=aid) selects each posting on that account exactly as often
   * as the table holds it, and no other posting.
   */
  lemma {:induction false} OfAkunCounts(js: seq<Jurnal>, aid: nat, j: Jurnal)
    ensures multiset(OfAkun(js, aid))[j] == if j.akun == aid then multiset(js)[j] else 0
  {
    if js != [] {
      var init := js[..|js| - 1];
      OfAkunCounts(init, aid, j);
      assert js == init + [js[|js| - 1]];
    }
  }

  /** filter(akun=aid) keeps table order: it commutes with appending. */
  lemma OfAkunAppend(a: seq<Jurnal>, b: seq<Jurnal>, aid: nat)
    ensures OfAkun(a + b, aid) == OfAkun(a, aid) + OfAkun(b, aid)
  {
    OfAkunIsOfAkunIn(a + b, aid);
    OfAkunIsOfAkunIn(a, aid);
    OfAkunIsOfAkunIn(b, aid);
    OfAkunInAppend(a, b, {aid});
  }

  /** filter(akun=aid) is filter(akun__in=[aid]). */
  lemma {:induction false} OfAkunIsOfAkunIn(js: seq<Jurnal>, aid: nat)
    ensures OfAkun(js, aid) == OfAkunIn(js, {aid})
  {
    if js != [] {
      OfAkunIsOfAkunIn(js[..|js| - 1], aid);
    }
  }

  /** Jurnal.objects.filter(transaksi=tid), in table order. */
  function OfTransaksi(js: seq<Jurnal>, tid: nat): (r: seq<Jurnal>)
    ensures forall j :: j in r <==> j in js && j.transaksi == tid
  {
    if js == [] then []
    else
      var rest := OfTransaksi(js[..|js| - 1], tid);
      var j := js[|js| - 1];
      if j.transaksi == tid then rest + [j] else rest
  }

  /** Jurnal.objects.filter(akun__in=ids), in table order. */
  function OfAkunIn(js: seq<Jurnal>, ids: set<nat>): (r: seq<Jurnal>)
    ensures forall j :: j in r <==> j in js && j.akun in ids
  {
    if js == [] then []
    else
      var rest := OfAkunIn(js[..|js| - 1], ids);
      var j := js[|js| - 1];
      if j.akun in ids then rest + [j] else rest
  }

  /** Akun.objects.filter(user=u), in table (primary key) order. */
  function AkunsOf(akuns: seq<Akun>, u: UserId): (r: seq<Akun>)
    ensures forall a :: a in r <==> a in akuns && a.user == u
  {
    if akuns == [] then []
    else
      var rest := AkunsOf(akuns[..|akuns| - 1], u);
      var a := akuns[|akuns| - 1];
      if a.user == u then rest + [a] else rest
  }

  /** The keys of u's accounts, which `akun__user=u` joins through. */
  function UserAkunIds(akuns: seq<Akun>, u: UserId): (r: set<nat>)
    ensures forall id :: id in r <==> exists a :: a in akuns && a.user == u && a.id == id
  {
    set a | a in akuns && a.user == u :: a.id
  }

  /** The join's keys are the keys of the accounts Akun.objects.filter(user=u) lists. */
  lemma UserAkunIdsAreAkunsOf(akuns: seq<Akun>, u: UserId)
    ensures UserAkunIds(akuns, u) == AkunIds(AkunsOf(akuns, u))
  {
  }

  /** Jurnal.objects.filter(akun__user=u): the postings on u's accounts. */
  function OfUser(js: seq<Jurnal>, akuns: seq<Akun>, u: UserId): seq<Jurnal>
  {
    OfAkunIn(js, UserAkunIds(akuns, u))
  }

  // ----- sums over concatenations and splits -----

  lemma {:induction false} SumsAppend(a: seq<Jurnal>, b: seq<Jurnal>)
    ensures Debits(a + b) == Debits(a) + Debits(b)
    ensures Kredits(a + b) == Kredits(a) + Kredits(b)
    decreases |b|
  {
    if b == [] {
      assert a + b == a;
    } else {
      var b' := b[..|b| - 1];
      SumsAppend(a, b');
      assert (a + b)[..|a + b| - 1] == a + b';
    }
  }

  /** Adding a debit leg and a credit leg of the same amount leaves Net unchanged. */
  lemma TwoLegsNet(js: seq<Jurnal>, d: Jurnal, k: Jurnal)
    requires d.debit == k.kredit && d.kredit == 0 && k.debit == 0
    ensures Net(js + [d, k]) == Net(js)
  {
    SumsAppend(js, [d, k]);
    assert [d, k][..1] == [d];
    assert [d][..0] == [];
    assert Debits([d]) == d.debit && Kredits([d]) == 0;
    assert Debits([d, k]) == d.debit && Kredits([d, k]) == k.kredit;
  }

  /** Every posting lies in exactly one of filter(transaksi=tid) and its complement. */
  lemma {:induction false} SplitByTransaksi(js: seq<Jurnal>, tid: nat)
    ensures Debits(js) == Debits(OfTransaksi(js, tid)) + Debits(JurnalsNotOfTransaksi(js, tid))
    ensures Kredits(js) == Kredits(OfTransaksi(js, tid)) + Kredits(JurnalsNotOfTransaksi(js, tid))
  {
    if js != [] {
      SplitByTransaksi(js[..|js| - 1], tid);
    }
  }

  /** Filtering by account owner commutes with removing a transaction's postings. */
  lemma {:induction false} OfAkunInWithoutTransaksi(js: seq<Jurnal>, ids: set<nat>, tid: nat)
    ensures OfAkunIn(JurnalsNotOfTransaksi(js, tid), ids) == JurnalsNotOfTransaksi(OfAkunIn(js, ids), tid)
  {
    if js != [] {
      OfAkunInWithoutTransaksi(js[..|js| - 1], ids, tid);
    }
  }

  /**
   * filter(akun__in=ids) selects each posting on one of those accounts
   * exactly as often as the table holds it, and no other posting.
   */
  lemma {:induction false} OfAkunInCounts(js: seq<Jurnal>, ids: set<nat>, j: Jurnal)
    ensures multiset(OfAkunIn(js, ids))[j] == if j.akun in ids then multiset(js)[j] else 0
  {
    if js != [] {
      var init := js[..|js| - 1];
      OfAkunInCounts(init, ids, j);
      assert js == init + [js[|js| - 1]];
    }
  }

  /** Filtering by account commutes with appending. */
  lemma {:induction false} OfAkunInAppend(a: seq<Jurnal>, b: seq<Jurnal>, ids: set<nat>)
    ensures OfAkunIn(a + b, ids) == OfAkunIn(a, ids) + OfAkunIn(b, ids)
    decreases |b|
  {
    if b == [] {
      assert a + b == a;
    } else {
      var b' := b[..|b| - 1];
      OfAkunInAppend(a, b', ids);
      assert (a + b)[..|a + b| - 1] == a + b';
    }
  }

  lemma {:induction false} OfAkunInAll(js: seq<Jurnal>, ids: set<nat>)
    requires forall j :: j in js ==> j.akun in ids
    ensures OfAkunIn(js, ids) == js
  {
    if js != [] {
      OfAkunInAll(js[..|js| - 1], ids);
      assert js == js[..|js| - 1] + [js[|js| - 1]];
    }
  }

  lemma {:induction false} OfAkunInNone(js: seq<Jurnal>, ids: set<nat>)
    requires forall j :: j in js ==> j.akun !in ids
    ensures OfAkunIn(js, ids) == []
  {
    if js != [] {
      OfAkunInNone(js[..|js| - 1], ids);
    }
  }

  /** Two key sets select the same postings when no posting tells them apart. */
  lemma {:induction false} OfAkunInSameOn(js: seq<Jurnal>, s1: set<nat>, s2: set<nat>)
    requires forall j :: j in js ==> (j.akun in s1 <==> j.akun in s2)
    ensures OfAkunIn(js, s1) == OfAkunIn(js, s2)
  {
    if js != [] {
      OfAkunInSameOn(js[..|js| - 1], s1, s2);
    }
  }

  /** Selecting one more account adds exactly that account's postings to the sums. */
  lemma {:induction false} SplitOneAkun(js: seq<Jurnal>, ids: set<nat>, aid: nat)
    requires aid !in ids
    ensures Debits(OfAkunIn(js, ids + {aid})) == Debits(OfAkunIn(js, ids)) + Debits(OfAkun(js, aid))
    ensures Kredits(OfAkunIn(js, ids + {aid})) == Kredits(OfAkunIn(js, ids)) + Kredits(OfAkun(js, aid))
  {
    if js != [] {
      var init, j := js[..|js| - 1], js[|js| - 1];
      SplitOneAkun(init, ids, aid);
      var all, some, one := OfAkunIn(init, ids + {aid}), OfAkunIn(init, ids), OfAkun(init, aid);
      if j.akun == aid {
        assert OfAkunIn(js, ids + {aid}) == all + [j] && OfAkunIn(js, ids) == some && OfAkun(js, aid) == one + [j];
        SumsAppend(all, [j]);
        SumsAppend(one, [j]);
      } else if j.akun in ids {
        assert OfAkunIn(js, ids + {aid}) == all + [j] && OfAkunIn(js, ids) == some + [j] && OfAkun(js, aid) == one;
        SumsAppend(all, [j]);
        SumsAppend(some, [j]);
      } else {
        assert OfAkunIn(js, ids + {aid}) == all && OfAkunIn(js, ids) == some && OfAkun(js, aid) == one;
      }
    }
  }

  /** Selecting a user's accounts keeps them in increasing key order. */
  lemma {:induction false} AkunsOfIncreasing(akuns: seq<Akun>, u: UserId)
    requires AkunIdsIncreasing(akuns)
    ensures AkunIdsIncreasing(AkunsOf(akuns, u))
  {
    if akuns != [] {
      var init := akuns[..|akuns| - 1];
      assert AkunIdsIncreasing(init);
      AkunsOfIncreasing(init, u);
      LastAkunApart(akuns);
      AppendAkunApart(AkunsOf(init, u), akuns[|akuns| - 1]);
    }
  }

  /** Filtering by transaction commutes with appending. */
  lemma {:induction false} OfTransaksiAppend(a: seq<Jurnal>, b: seq<Jurnal>, tid: nat)
    ensures OfTransaksi(a + b, tid) == OfTransaksi(a, tid) + OfTransaksi(b, tid)
    decreases |b|
  {
    if b == [] {
      assert a + b == a;
    } else {
      var b' := b[..|b| - 1];
      OfTransaksiAppend(a, b', tid);
      assert (a + b)[..|a + b| - 1] == a + b';
    }
  }

  /** After a transaction's postings are removed, the other transactions keep theirs. */
  lemma {:induction false} OfTransaksiWithout(js: seq<Jurnal>, tid: nat, other: nat)
    ensures OfTransaksi(JurnalsNotOfTransaksi(js, tid), other) == if other == tid then [] else OfTransaksi(js, other)
  {
    if js != [] {
      OfTransaksiWithout(js[..|js| - 1], tid, other);
    }
  }

  /** Filtering by transaction commutes with filtering by account. */
  lemma {:induction false} OfTransaksiOfAkunIn(js: seq<Jurnal>, ids: set<nat>, tid: nat)
    ensures OfTransaksi(OfAkunIn(js, ids), tid) == OfAkunIn(OfTransaksi(js, tid), ids)
  {
    if js != [] {
      OfTransaksiOfAkunIn(js[..|js| - 1], ids, tid);
    }
  }

  /** No posting of a transaction no posting refers to. */
  lemma {:induction false} OfTransaksiNone(js: seq<Jurnal>, tid: nat)
    requires forall j :: j in js ==> j.transaksi != tid
    ensures OfTransaksi(js, tid) == []
  {
    if js != [] {
      OfTransaksiNone(js[..|js| - 1], tid);
    }
  }
}

=== FILE: reports.dfy ===
/**
 * The report views routed to the user: buku_besar (general ledger),
 * neraca_saldo (trial balance) and laporan_keuangan (balance sheet, income
 * statement, reconstructed cash flow and ratios). Each is a transform of
 * the account list, or of the engine's totals, of the requesting user.
 */
module Reports {
  import opened Wrappers
  import opened Models
  import opened Queries
  import opened Engine

  // ----- buku_besar -----

  /** One account's page of the general ledger. */
  datatype LedgerPage = LedgerPage(akun: Akun, jurnal: seq<Jurnal>, totalDebit: int, totalKredit: int)

  function PageFor(a: Akun, js: seq<Jurnal>): LedgerPage
  {
    var jurnal := OfAkun(js, a.id);
    LedgerPage(a, jurnal, Debits(jurnal), Kredits(jurnal))
  }

  /** The pages of a list of accounts, one per account, in the same order. */
  function Pages(akunList: seq<Akun>, js: seq<Jurnal>): (r: seq<LedgerPage>)
    ensures |r| == |akunList| && forall i :: 0 <= i < |r| ==> r[i] == PageFor(akunList[i], js)
  {
    if akunList == [] then []
    else Pages(akunList[..|akunList| - 1], js) + [PageFor(akunList[|akunList| - 1], js)]
  }

  datatype BukuBesarView = BukuBesarView(data: seq<LedgerPage>, allAkun: seq<Akun>,
                                         grandTotalDebit: int, grandTotalKredit: int)

  /**
   * buku_besar: a page per account of the user, with that account's
   * postings and their sums; the grand totals are the engine's columns.
   */
  method BukuBesar(akuns: seq<Akun>, js: seq<Jurnal>, user: UserId) returns (v: BukuBesarView)
    ensures v.allAkun == AkunsOf(akuns, user) && v.data == Pages(v.allAkun, js)
    ensures v.grandTotalDebit == AccountTotalsFor(akuns, js, user).totalDebit
    ensures v.grandTotalKredit == AccountTotalsFor(akuns, js, user).totalKredit
  {
    var akunList := AkunsOf(akuns, user);
    var data, grandTotalDebit, grandTotalKredit := LedgerPages(akunList, js);
    v := BukuBesarView(data, akunList, grandTotalDebit, grandTotalKredit);
  }

  /** The view's loop: a page per account, and the running sums of the pages' totals. */
  method LedgerPages(akunList: seq<Akun>, js: seq<Jurnal>)
    returns (data: seq<LedgerPage>, grandTotalDebit: int, grandTotalKredit: int)
    ensures data == Pages(akunList, js)
    ensures grandTotalDebit == DebitColumn(EntriesOf(akunList, js))
    ensures grandTotalKredit == KreditColumn(EntriesOf(akunList, js))
  {
    var pages: seq<LedgerPage> := [];
    var debitSum, kreditSum := 0, 0;
    for i := 0 to |akunList|
      invariant pages == Pages(akunList[..i], js)
      invariant debitSum == DebitColumn(EntriesOf(akunList[..i], js))
      invariant kreditSum == KreditColumn(EntriesOf(akunList[..i], js))
    {
      var akun := akunList[i];
      var jurnal := OfAkun(js, akun.id);
      var totalDebit := Debits(jurnal);
      var totalKredit := Kredits(jurnal);
      var page := LedgerPage(akun, jurnal, totalDebit, totalKredit);
      PagesStep(akunList, js, i);
      pages := pages + [page];
      debitSum := debitSum + totalDebit;
      kreditSum := kreditSum + totalKredit;
    }
    assert akunList[..|akunList|] == akunList;
    data, grandTotalDebit, grandTotalKredit := pages, debitSum, kreditSum;
  }

  /** One more account adds its page and its sums. */
  lemma PagesStep(akunList: seq<Akun>, js: seq<Jurnal>, i: nat)
    requires i < |akunList|
    ensures var a := akunList[i];
      && Pages(akunList[..i + 1], js) == Pages(akunList[..i], js) + [PageFor(a, js)]
      && DebitColumn(EntriesOf(akunList[..i + 1], js)) == DebitColumn(EntriesOf(akunList[..i], js)) + Debits(OfAkun(js, a.id))
      && KreditColumn(EntriesOf(akunList[..i + 1], js)) == KreditColumn(EntriesOf(akunList[..i], js)) + Kredits(OfAkun(js, a.id))
  {
    var a := akunList[i];
    assert akunList[..i + 1][..i] == akunList[..i];
    assert EntriesOf(akunList[..i + 1], js) == EntriesOf(akunList[..i], js) + [EntryFor(a, js)];
    AppendEntry(EntriesOf(akunList[..i], js), EntryFor(a, js));
  }

  // ----- neraca_saldo -----

  /** A trial-balance line: the balance shown in one column only. */
  datatype TrialRow = TrialRow(kode: string, nama: string, totalDebet: int, totalKredit: int)

  function TrialRowOf(e: SaldoEntry): (r: TrialRow)
    ensures r.kode == e.akun.kode && r.nama == e.akun.nama
    ensures r.totalDebet >= 0 && r.totalKredit >= 0
    ensures r.totalDebet == 0 || r.totalKredit == 0
    ensures r.totalDebet - r.totalKredit == e.debit - e.kredit
  {
    if e.debit >= e.kredit then TrialRow(e.akun.kode, e.akun.nama, e.debit - e.kredit, 0)
    else TrialRow(e.akun.kode, e.akun.nama, 0, e.kredit - e.debit)
  }

  /** The trial-balance lines of an entry list, one per entry, in order. */
  function TrialRows(entries: seq<SaldoEntry>): (r: seq<TrialRow>)
    ensures |r| == |entries| && forall i :: 0 <= i < |r| ==> r[i] == TrialRowOf(entries[i])
  {
    if entries == [] then []
    else TrialRows(entries[..|entries| - 1]) + [TrialRowOf(entries[|entries| - 1])]
  }

  datatype NeracaSaldoView = NeracaSaldoView(
    saldo: seq<SaldoEntry>, neracaData: seq<TrialRow>,
    totalDebit: int, totalKredit: int, totalAktiva: int, totalKewajiban: int, totalModal: int,
    totalPendapatan: int, totalBeban: int, labaRugi: int, rhsTotal: int)

  /** The net income: revenue minus expense. */
  function NetIncome(data: AccountTotals): int
  {
    data.totalPendapatan - data.totalBeban
  }

  /** The accounting equation's right side: liabilities plus equity plus the period's earnings. */
  function EquationRight(data: AccountTotals): int
  {
    data.totalKewajiban + (data.totalModal + NetIncome(data))
  }

  /**
   * neraca_saldo: the trial-balance lines of the engine's entries and the
   * engine's totals; its right-hand total is the statement's equation_right,
   * and falls short of total_aktiva by exactly the ledger's imbalance.
   */
  method NeracaSaldo(akuns: seq<Akun>, js: seq<Jurnal>, user: UserId) returns (v: NeracaSaldoView)
    ensures var data := AccountTotalsFor(akuns, js, user);
      && v.saldo == data.saldo && v.neracaData == TrialRows(data.saldo)
      && v.totalDebit == data.totalDebit && v.totalKredit == data.totalKredit
      && v.totalAktiva == data.totalAktiva && v.totalKewajiban == data.totalKewajiban
      && v.totalModal == data.totalModal && v.totalPendapatan == data.totalPendapatan
      && v.totalBeban == data.totalBeban
      && v.labaRugi == NetIncome(data) && v.rhsTotal == EquationRight(data)
    ensures v.totalAktiva - v.rhsTotal == v.totalDebit - v.totalKredit
  {
    var data := ComputeAccountTotalsForUser(akuns, js, user);
    var neracaData := TrialLines(data.saldo);
    v := NeracaSaldoView(data.saldo, neracaData, data.totalDebit, data.totalKredit,
                         data.totalAktiva, data.totalKewajiban, data.totalModal,
                         data.totalPendapatan, data.totalBeban,
                         data.totalPendapatan - data.totalBeban,
                         data.totalKewajiban + data.totalModal + (data.totalPendapatan - data.totalBeban));
  }

  /** The loop over the entries that writes one trial-balance line per account. */
  method TrialLines(saldo: seq<SaldoEntry>) returns (neracaData: seq<TrialRow>)
    ensures neracaData == TrialRows(saldo)
  {
    neracaData := [];
    for i := 0 to |saldo|
      invariant neracaData == TrialRows(saldo[..i])
    {
      var entry := saldo[i];
      var debit := entry.debit;
      var kredit := entry.kredit;
      var dispDebet, dispKredit;
      if debit >= kredit {
        dispDebet, dispKredit := debit - kredit, 0;
      } else {
        dispDebet, dispKredit := 0, kredit - debit;
      }
      var row := TrialRow(entry.akun.kode, entry.akun.nama, dispDebet, dispKredit);
      assert row == TrialRowOf(entry);
      assert TrialRows(saldo[..i + 1]) == neracaData + [row] by {
        assert saldo[..i + 1][..i] == saldo[..i];
      }
      neracaData := neracaData + [row];
    }
    assert saldo[..|saldo|] == saldo;
  }

  // ----- laporan_keuangan: grouping -----

  /** A statement line: an account and the amount shown for it. */
  datatype StatementRow = StatementRow(akun: Akun, saldo: int)

  /** The magnitude shown for a balance on the given side: its active part, else 0. */
  function DisplayValue(saldo: int, side: NormalSide): nat
  {
    match side
    case DebitNormal => if saldo > 0 then saldo else 0
    case CreditNormal => if saldo < 0 then -saldo else 0
  }

  /** The lines of the entries whose type is one of the labels, shown on the given side. */
  function DisplayRows(entries: seq<SaldoEntry>, labels: seq<string>, side: NormalSide): (r: seq<StatementRow>)
    ensures forall row :: row in r ==> row.akun.tipe in labels && row.saldo >= 0
  {
    if entries == [] then []
    else
      var rest := DisplayRows(entries[..|entries| - 1], labels, side);
      var e := entries[|entries| - 1];
      if e.akun.tipe in labels then rest + [StatementRow(e.akun, DisplayValue(e.saldo, side))] else rest
  }

  /**
   * Every entry whose type is one of the labels gets a line with the active
   * part of its balance, and every line comes from such an entry.
   */
  lemma {:induction false} DisplayRowsMeaning(entries: seq<SaldoEntry>, labels: seq<string>, side: NormalSide)
    ensures var r := DisplayRows(entries, labels, side);
      && (forall e :: e in entries && e.akun.tipe in labels ==> StatementRow(e.akun, DisplayValue(e.saldo, side)) in r)
      && (forall row :: row in r ==> exists e :: e in entries && e.akun.tipe in labels
                                                && row == StatementRow(e.akun, DisplayValue(e.saldo, side)))
      && |r| <= |entries|
  {
    if entries != [] {
      var init, last := entries[..|entries| - 1], entries[|entries| - 1];
      DisplayRowsMeaning(init, labels, side);
      assert entries == init + [last];
    }
  }

  /** The 'laporan' list: every entry with its signed balance. */
  function LaporanRows(entries: seq<SaldoEntry>): (r: seq<StatementRow>)
    ensures |r| == |entries| && forall i :: 0 <= i < |r| ==> r[i] == StatementRow(entries[i].akun, entries[i].saldo)
  {
    seq(|entries|, i requires 0 <= i < |entries| => StatementRow(entries[i].akun, entries[i].saldo))
  }

  /** The labels the statement lists under aktiva, as the views write them. */
  const DisplayAssetTypes: seq<string> := ["Aset", "Aktiva", "Aktiva Lancar", "Aktiva Tetap"]

  datatype Grouping = Grouping(laporan: seq<StatementRow>, aktiva: seq<StatementRow>,
                               kewajiban: seq<StatementRow>, modal: seq<StatementRow>,
                               pendapatan: seq<StatementRow>, beban: seq<StatementRow>)

  /** The six statement lists, with the given labels standing for aktiva. */
  function GroupingOf(entries: seq<SaldoEntry>, assetLabels: seq<string>): Grouping
  {
    Grouping(LaporanRows(entries),
             DisplayRows(entries, assetLabels, DebitNormal),
             DisplayRows(entries, LiabilityTypes, CreditNormal),
             DisplayRows(entries, ["Modal"], CreditNormal),
             DisplayRows(entries, ["Pendapatan"], CreditNormal),
             DisplayRows(entries, ["Beban"], DebitNormal))
  }

  /** No asset label is also a liability, equity, revenue or expense label. */
  predicate SeparateAssetLabels(assetLabels: seq<string>)
  {
    forall l :: l in assetLabels ==> l !in LiabilityTypes && l != "Modal" && l != "Pendapatan" && l != "Beban"
  }

  lemma AssetLabelsSeparate()
    ensures SeparateAssetLabels(AssetTypes) && SeparateAssetLabels(DisplayAssetTypes)
  {
  }

  lemma DisplayRowsStep(entries: seq<SaldoEntry>, e: SaldoEntry, labels: seq<string>, side: NormalSide)
    ensures DisplayRows(entries + [e], labels, side)
         == DisplayRows(entries, labels, side)
            + (if e.akun.tipe in labels then [StatementRow(e.akun, DisplayValue(e.saldo, side))] else [])
  {
    assert (entries + [e])[..|entries|] == entries;
  }

  /**
   * The grouping loop as written: every entry goes to laporan, and to the
   * first of the aktiva, kewajiban, modal, pendapatan and beban lists whose
   * labels hold its type, with the magnitude of its active side.
   */
  method GroupStatement(entries: seq<SaldoEntry>, assetLabels: seq<string>) returns (g: Grouping)
    requires SeparateAssetLabels(assetLabels)
    ensures g == GroupingOf(entries, assetLabels)
  {
    var laporan, aktiva, kewajiban, modal, pendapatan, beban := [], [], [], [], [], [];
    for i := 0 to |entries|
      invariant laporan == LaporanRows(entries[..i])
      invariant aktiva == DisplayRows(entries[..i], assetLabels, DebitNormal)
      invariant kewajiban == DisplayRows(entries[..i], LiabilityTypes, CreditNormal)
      invariant modal == DisplayRows(entries[..i], ["Modal"], CreditNormal)
      invariant pendapatan == DisplayRows(entries[..i], ["Pendapatan"], CreditNormal)
      invariant beban == DisplayRows(entries[..i], ["Beban"], DebitNormal)
    {
      var entry := entries[i];
      var akun, saldoAkhir := entry.akun, entry.saldo;
      assert entries[..i + 1] == entries[..i] + [entry];
      DisplayRowsStep(entries[..i], entry, assetLabels, DebitNormal);
      DisplayRowsStep(entries[..i], entry, LiabilityTypes, CreditNormal);
      DisplayRowsStep(entries[..i], entry, ["Modal"], CreditNormal);
      DisplayRowsStep(entries[..i], entry, ["Pendapatan"], CreditNormal);
      DisplayRowsStep(entries[..i], entry, ["Beban"], DebitNormal);
      laporan := laporan + [StatementRow(akun, saldoAkhir)];
      if akun.tipe in assetLabels {
        aktiva := aktiva + [StatementRow(akun, if saldoAkhir > 0 then Abs(saldoAkhir) else 0)];
      } else if akun.tipe in LiabilityTypes {
        kewajiban := kewajiban + [StatementRow(akun, if saldoAkhir < 0 then Abs(saldoAkhir) else 0)];
      } else if akun.tipe == "Modal" {
        modal := modal + [StatementRow(akun, if saldoAkhir < 0 then Abs(saldoAkhir) else 0)];
      } else if akun.tipe == "Pendapatan" {
        pendapatan := pendapatan + [StatementRow(akun, if saldoAkhir < 0 then Abs(saldoAkhir) else 0)];
      } else if akun.tipe == "Beban" {
        beban := beban + [StatementRow(akun, if saldoAkhir > 0 then Abs(saldoAkhir) else 0)];
      }
    }
    assert entries[..|entries|] == entries;
    g := Grouping(laporan, aktiva, kewajiban, modal, pendapatan, beban);
  }

  // ----- laporan_keuangan: totals, cash flow and ratios -----

  /** The unsaved account that carries the period's earnings into the modal list. */
  const LabaTahunBerjalan: Akun := Akun(0, 0, "Laba Tahun Berjalan", "", "Modal")

  /** The modal list with the earnings line appended when the net income is not zero. */
  function ModalWithEarnings(modal: seq<StatementRow>, net: int): (r: seq<StatementRow>)
    ensures net == 0 ==> r == modal
    ensures net != 0 ==> |r| == |modal| + 1 && r[..|modal|] == modal
                         && r[|modal|] == StatementRow(LabaTahunBerjalan, Abs(net))
  {
    if net != 0 then modal + [StatementRow(LabaTahunBerjalan, if net < 0 then Abs(net) else net)] else modal
  }

  datatype CashFlow = CashFlow(
    kasMasukOperasional: int, kasKeluarOperasional: int, kasBersihOperasional: int,
    kasMasukInvestasi: int, kasKeluarInvestasi: int, kasBersihInvestasi: int,
    kasMasukPendanaan: int, kasKeluarPendanaan: int, kasBersihPendanaan: int,
    totalKasBersih: int, kasAwal: int, kasAkhir: int)

  /**
   * The reconstructed cash flow: revenue in and expense out from operations,
   * nothing from investing, equity in from financing; the closing cash is
   * the total assets.
   */
  function CashFlowOf(data: AccountTotals): (c: CashFlow)
    ensures c.kasMasukOperasional == data.totalPendapatan && c.kasKeluarOperasional == data.totalBeban
    ensures c.kasBersihOperasional == NetIncome(data)
    ensures c.kasMasukInvestasi == 0 && c.kasKeluarInvestasi == 0 && c.kasBersihInvestasi == 0
    ensures c.kasMasukPendanaan == data.totalModal && c.kasKeluarPendanaan == 0
    ensures c.kasBersihPendanaan == data.totalModal
    ensures c.totalKasBersih == NetIncome(data) + data.totalModal
    ensures c.kasAwal == 0 && c.kasAkhir == data.totalAktiva
  {
    var masukOp, keluarOp := data.totalPendapatan, data.totalBeban;
    var bersihOp := masukOp - keluarOp;
    var masukInv, keluarInv := 0, 0;
    var bersihInv := masukInv - keluarInv;
    var masukDana, keluarDana := data.totalModal, 0;
    var bersihDana := masukDana - keluarDana;
    CashFlow(masukOp, keluarOp, bersihOp, masukInv, keluarInv, bersihInv,
             masukDana, keluarDana, bersihDana, bersihOp + bersihInv + bersihDana, 0, data.totalAktiva)
  }

  /** Net income as a percentage of revenue; 0 when there is no revenue. */
  function ProfitMargin(net: int, pendapatan: int): (r: real)
    ensures pendapatan == 0 ==> r == 0.0
    ensures pendapatan != 0 ==> r * (pendapatan as real) == (net as real) * 100.0
  {
    if pendapatan != 0 then (net as real) / (pendapatan as real) * 100.0 else 0.0
  }

  /** Assets over liabilities; undefined (None), not 0, when there are no liabilities. */
  function CurrentRatio(aktiva: int, kewajiban: int): (r: Option<real>)
    ensures r.None? <==> kewajiban == 0
    ensures r.Some? ==> r.value * (kewajiban as real) == aktiva as real
  {
    if kewajiban != 0 then Some((aktiva as real) / (kewajiban as real)) else None
  }

  datatype LaporanView = LaporanView(
    lists: Grouping,
    totalAktiva: int, totalKewajiban: int, totalModal: int, totalModalDisplay: int,
    totalPendapatan: int, totalBeban: int, netIncome: int, equationRight: int,
    cashFlow: CashFlow, profitMargin: real, currentRatio: Option<real>)

  /** The statement built from the engine's totals and the grouped lists. */
  function ComposeLaporan(data: AccountTotals, g: Grouping): LaporanView
  {
    var net := NetIncome(data);
    LaporanView(g.(modal := ModalWithEarnings(g.modal, net)),
                data.totalAktiva, data.totalKewajiban, data.totalModal, data.totalModal + net,
                data.totalPendapatan, data.totalBeban, net, data.totalKewajiban + (data.totalModal + net),
                CashFlowOf(data), ProfitMargin(net, data.totalPendapatan),
                CurrentRatio(data.totalAktiva, data.totalKewajiban))
  }

  /** The statement laporan_keuangan renders: its aktiva list takes the four labels of the views. */
  function StatementOf(data: AccountTotals): LaporanView
  {
    ComposeLaporan(data, GroupingOf(data.saldo, DisplayAssetTypes))
  }

  /** The statement with all five asset labels of the engine listed under aktiva. */
  function CorrectedStatementOf(data: AccountTotals): LaporanView
  {
    ComposeLaporan(data, GroupingOf(data.saldo, AssetTypes))
  }

  /**
   * laporan_keuangan as written: the lists grouped with the views' four
   * asset labels and the composed totals; the equation's two sides differ
   * by exactly the ledger's imbalance.
   */
  method LaporanKeuangan(akuns: seq<Akun>, js: seq<Jurnal>, user: UserId) returns (v: LaporanView)
    ensures v == StatementOf(AccountTotalsFor(akuns, js, user))
    ensures v.equationRight == v.totalKewajiban + v.totalModalDisplay
    ensures v.totalAktiva - v.equationRight == AccountTotalsFor(akuns, js, user).totalDebit
                                              - AccountTotalsFor(akuns, js, user).totalKredit
  {
    var data := ComputeAccountTotalsForUser(akuns, js, user);
    AssetLabelsSeparate();
    var g := GroupStatement(data.saldo, DisplayAssetTypes);
    v := ComposeLaporan(data, g);
  }

  /**
   * laporan_keuangan with the aktiva list corrected to every label the
   * engine counts in total_aktiva; everything else is as written.
   */
  method LaporanKeuanganCorrected(akuns: seq<Akun>, js: seq<Jurnal>, user: UserId) returns (v: LaporanView)
    ensures v == CorrectedStatementOf(AccountTotalsFor(akuns, js, user))
    ensures v.equationRight == v.totalKewajiban + v.totalModalDisplay
    ensures v.totalAktiva - v.equationRight == AccountTotalsFor(akuns, js, user).totalDebit
                                              - AccountTotalsFor(akuns, js, user).totalKredit
    ensures RowsTotal(v.lists.aktiva) + RoutedOutside(AccountTotalsFor(akuns, js, user).saldo, AssetTypes, Aktiva)
         == v.totalAktiva
  {
    var data := ComputeAccountTotalsForUser(akuns, js, user);
    AssetLabelsSeparate();
    var g := GroupStatement(data.saldo, AssetTypes);
    v := ComposeLaporan(data, g);
    AktivaReconciles(data.saldo);
  }

  // ----- how the lists add up to the totals -----

  function RowsTotal(rows: seq<StatementRow>): int
  {
    if rows == [] then 0 else RowsTotal(rows[..|rows| - 1]) + rows[|rows| - 1].saldo
  }

  /** What the entries whose type is not one of the labels add to bucket b. */
  function RoutedOutside(entries: seq<SaldoEntry>, labels: seq<string>, b: Bucket): nat
  {
    if entries == [] then 0
    else
      var e := entries[|entries| - 1];
      RoutedOutside(entries[..|entries| - 1], labels, b) + (if e.akun.tipe in labels then 0 else Share(e, b))
  }

  /** For accounts of these labels, the side shown is the share routed to b. */
  ghost predicate ShownAsRouted(labels: seq<string>, side: NormalSide, b: Bucket)
  {
    forall t, s :: t in labels ==> DisplayValue(s, side) == (if s != 0 && Destination(t, s) == b then Abs(s) else 0)
  }

  lemma RowsTotalAppend(rows: seq<StatementRow>, row: StatementRow)
    ensures RowsTotal(rows + [row]) == RowsTotal(rows) + row.saldo
  {
    assert (rows + [row])[..|rows|] == rows;
  }

  /**
   * When the lines of the labels show what is routed to b, the listed total
   * and the contributions of the other accounts make up b's total.
   */
  lemma {:induction false} Reconcile(entries: seq<SaldoEntry>, labels: seq<string>, side: NormalSide, b: Bucket)
    requires ShownAsRouted(labels, side, b)
    ensures RowsTotal(DisplayRows(entries, labels, side)) + RoutedOutside(entries, labels, b) == Routed(entries, b)
  {
    if entries != [] {
      var init, e := entries[..|entries| - 1], entries[|entries| - 1];
      Reconcile(init, labels, side, b);
      var rest := DisplayRows(init, labels, side);
      if e.akun.tipe in labels {
        var row := StatementRow(e.akun, DisplayValue(e.saldo, side));
        assert DisplayRows(entries, labels, side) == rest + [row];
        assert row.saldo == Share(e, b);
        RowsTotalAppend(rest, row);
      } else {
        assert DisplayRows(entries, labels, side) == rest;
      }
    }
  }

  /** No account outside the labels routes anything to b. */
  lemma {:induction false} NothingOutside(entries: seq<SaldoEntry>, labels: seq<string>, b: Bucket)
    requires forall t, s :: s != 0 && Destination(t, s) == b ==> t in labels
    ensures RoutedOutside(entries, labels, b) == 0
  {
    if entries != [] {
      NothingOutside(entries[..|entries| - 1], labels, b);
    }
  }

  /** The beban list adds up to total_beban. */
  lemma BebanReconciles(entries: seq<SaldoEntry>)
    ensures RowsTotal(GroupingOf(entries, DisplayAssetTypes).beban) == Routed(entries, Beban)
  {
    Reconcile(entries, ["Beban"], DebitNormal, Beban);
    NothingOutside(entries, ["Beban"], Beban);
  }

  /** The modal list, before the earnings line, adds up to total_modal. */
  lemma ModalReconciles(entries: seq<SaldoEntry>)
    ensures RowsTotal(GroupingOf(entries, DisplayAssetTypes).modal) == Routed(entries, Modal)
  {
    Reconcile(entries, ["Modal"], CreditNormal, Modal);
    NothingOutside(entries, ["Modal"], Modal);
  }

  /** The pendapatan list misses only what other accounts (credit balances of 'Beban' accounts) add. */
  lemma PendapatanReconciles(entries: seq<SaldoEntry>)
    ensures RowsTotal(GroupingOf(entries, DisplayAssetTypes).pendapatan) + RoutedOutside(entries, ["Pendapatan"], Pendapatan)
         == Routed(entries, Pendapatan)
  {
    Reconcile(entries, ["Pendapatan"], CreditNormal, Pendapatan);
  }

  /** The kewajiban list misses only the credit balances of non-liability accounts. */
  lemma KewajibanReconciles(entries: seq<SaldoEntry>)
    ensures RowsTotal(GroupingOf(entries, DisplayAssetTypes).kewajiban) + RoutedOutside(entries, LiabilityTypes, Kewajiban)
         == Routed(entries, Kewajiban)
  {
    assert "Modal" !in LiabilityTypes && "Pendapatan" !in LiabilityTypes && "Beban" !in LiabilityTypes;
    Reconcile(entries, LiabilityTypes, CreditNormal, Kewajiban);
  }

  /**
   * With all five asset labels listed, the aktiva list misses only the
   * debit balances of credit-normal accounts.
   */
  lemma AktivaReconciles(entries: seq<SaldoEntry>)
    ensures RowsTotal(GroupingOf(entries, AssetTypes).aktiva) + RoutedOutside(entries, AssetTypes, Aktiva)
         == Routed(entries, Aktiva)
  {
    assert "Beban" !in AssetTypes;
    Reconcile(entries, AssetTypes, DebitNormal, Aktiva);
  }

  /**
   * The aktiva list as the views write it misses the debit balances of
   * credit-normal accounts and, beyond the corrected list, every balance of
   * an 'Aktiva Lainnya' account.
   */
  lemma AktivaAsWrittenReconciles(entries: seq<SaldoEntry>)
    ensures RowsTotal(GroupingOf(entries, DisplayAssetTypes).aktiva) + RoutedOutside(entries, DisplayAssetTypes, Aktiva)
         == Routed(entries, Aktiva)
  {
    assert "Beban" !in DisplayAssetTypes;
    Reconcile(entries, DisplayAssetTypes, DebitNormal, Aktiva);
  }

  /**
   * The lists as the views write them leave out an 'Aktiva Lainnya'
   * account: its debit balance is counted in total_aktiva and shown in no
   * list but laporan; listing all five asset labels shows it under aktiva.
   */
  lemma OtherAssetsUnlisted()
    ensures var e := SaldoEntry(Akun(1, 7, "Deposito", "109", "Aktiva Lainnya"), 10_000, 0, 10_000);
      var asWritten := GroupingOf([e], DisplayAssetTypes);
      && Routed([e], Aktiva) == 10_000
      && asWritten.aktiva == [] && asWritten.kewajiban == [] && asWritten.modal == []
      && asWritten.pendapatan == [] && asWritten.beban == []
      && GroupingOf([e], AssetTypes).aktiva == [StatementRow(e.akun, 10_000)]
  {
    var e := SaldoEntry(Akun(1, 7, "Deposito", "109", "Aktiva Lainnya"), 10_000, 0, 10_000);
    assert [e][..0] == [];
    assert "Aktiva Lainnya" !in DisplayAssetTypes && "Aktiva Lainnya" !in LiabilityTypes;
    assert "Aktiva Lainnya" in AssetTypes;
  }

  /**
   * The modal list, earnings line included, adds up to total_modal plus
   * |net income|; it matches total_modal_display exactly when the period
   * has no loss.
   */
  lemma ModalDisplayReconciles(data: AccountTotals)
    requires data == Summarize(data.saldo)
    ensures var v := StatementOf(data);
      && RowsTotal(v.lists.modal) == data.totalModal + Abs(v.netIncome)
      && (RowsTotal(v.lists.modal) == v.totalModalDisplay <==> v.netIncome >= 0)
  {
    var net := NetIncome(data);
    var modal := GroupingOf(data.saldo, DisplayAssetTypes).modal;
    ModalReconciles(data.saldo);
    if net != 0 {
      RowsTotalAppend(modal, StatementRow(LabaTahunBerjalan, Abs(net)));
    }
  }
}

=== FILE: resolve.dfy ===
/**
 * resolve_akun_local, the API's reading of an account field: an owned
 * primary key, else an owned account whose kode or nama matches without
 * regard to case, else the kode in front of " - " (the form an account's
 * display string takes), else nothing.
 *
 * `.first()` on an unordered query returns the matching row of smallest
 * primary key; the account table is kept in increasing key order, so that
 * is the first match in sequence order.
 */
module Resolve {
  import opened Wrappers
  import opened Numerals
  import opened Text
  import opened Models

  /** The first account satisfying p, in table order. */
  function First(akuns: seq<Akun>, p: Akun -> bool): (r: Option<Akun>)
    ensures r.None? <==> forall a :: a in akuns ==> !p(a)
    ensures r.Some? ==> exists k :: 0 <= k < |akuns| && akuns[k] == r.value && p(r.value)
                                    && forall i :: 0 <= i < k ==> !p(akuns[i])
  {
    if akuns == [] then None
    else if p(akuns[0]) then Some(akuns[0])
    else
      var r := First(akuns[1..], p);
      if r.Some? then
        assert forall a :: a in akuns[1..] ==> a in akuns;
        var k :| 0 <= k < |akuns[1..]| && akuns[1..][k] == r.value && p(r.value)
                 && forall i :: 0 <= i < k ==> !p(akuns[1..][i]);
        assert akuns[k + 1] == r.value;
        assert forall i :: 1 <= i < k + 1 ==> akuns[i] == akuns[1..][i - 1];
        r
      else
        r
  }

  /** Whether an owned account matches val by kode or nama, without regard to case. */
  predicate NameMatch(a: Akun, user: UserId, val: string)
  {
    a.user == user && (EqualsIgnoreCase(a.kode, val) || EqualsIgnoreCase(a.nama, val))
  }

  /**
   * Step 1: get_object_or_404(Akun, id=int(val), user=user). It finds an
   * account exactly when val reads as the key of one of the user's
   * accounts; a miss (404) or a val int() refuses is swallowed.
   */
  function ById(akuns: seq<Akun>, user: UserId, val: string): (r: Option<Akun>)
    ensures r.Some? <==> exists a :: a in akuns && a.user == user && ParseInt(val) == Some(a.id)
    ensures r.Some? ==> r.value in akuns && r.value.user == user && ParseInt(val) == Some(r.value.id)
  {
    match ParseInt(val)
    case None => None
    case Some(id) => First(akuns, (a: Akun) => a.id == id && a.user == user)
  }

  /**
   * Step 2: the user's accounts filtered by kode__iexact=val or
   * nama__iexact=val, first: the earliest owned account that matches, and
   * None exactly when none does.
   */
  function ByKodeOrNama(akuns: seq<Akun>, user: UserId, val: string): (r: Option<Akun>)
    ensures r.Some? <==> exists a :: a in akuns && NameMatch(a, user, val)
    ensures r.Some? ==> exists k :: 0 <= k < |akuns| && akuns[k] == r.value && NameMatch(r.value, user, val)
                                    && forall i :: 0 <= i < k ==> !NameMatch(akuns[i], user, val)
  {
    First(akuns, (a: Akun) => NameMatch(a, user, val))
  }

  /** The user's accounts filtered by exact kode, first. */
  function WithKode(akuns: seq<Akun>, user: UserId, kode: string): (r: Option<Akun>)
    ensures r.Some? <==> exists a :: a in akuns && a.user == user && a.kode == kode
    ensures r.Some? ==> r.value in akuns && r.value.user == user && r.value.kode == kode
  {
    First(akuns, (a: Akun) => a.user == user && a.kode == kode)
  }

  /** The text in front of the first " - " of val, stripped: the kode of a display string. */
  function DisplayKode(val: string): string
  {
    Strip(BeforeFirst(val, " - "))
  }

  /**
   * Step 3: when val holds " - ", the user's account whose kode is the
   * stripped text before it; nothing when val holds no " - " or no owned
   * account has that kode.
   */
  function ByDisplayPrefix(akuns: seq<Akun>, user: UserId, val: string): (r: Option<Akun>)
    ensures r.Some? <==> Contains(val, " - ") && exists a :: a in akuns && a.user == user && a.kode == DisplayKode(val)
    ensures r.Some? ==> r.value in akuns && r.value.user == user && Contains(val, " - ") && r.value.kode == DisplayKode(val)
  {
    if Contains(val, " - ") then WithKode(akuns, user, DisplayKode(val)) else None
  }

  /**
   * The three steps in order. Whatever is found is one of the user's
   * accounts and matches val in one of the three ways. An owned key always
   * wins; without one, a kode or nama match wins, the earliest in table
   * order; only without either is the display-string kode looked up; and
   * nothing is found exactly when all three steps miss.
   */
  function ResolveAkun(akuns: seq<Akun>, user: UserId, val: string): (r: Option<Akun>)
    ensures r.Some? ==> r.value in akuns && r.value.user == user
    ensures r.Some? ==> || ParseInt(val) == Some(r.value.id)
                        || EqualsIgnoreCase(r.value.kode, val) || EqualsIgnoreCase(r.value.nama, val)
                        || (Contains(val, " - ") && r.value.kode == DisplayKode(val))
    ensures (exists a :: a in akuns && a.user == user && ParseInt(val) == Some(a.id)) ==>
              r.Some? && ParseInt(val) == Some(r.value.id)
    ensures (&& (forall a :: a in akuns && a.user == user ==> ParseInt(val) != Some(a.id))
             && (exists a :: a in akuns && NameMatch(a, user, val)))
            ==> r.Some? && NameMatch(r.value, user, val) && r == ByKodeOrNama(akuns, user, val)
    ensures (&& (forall a :: a in akuns && a.user == user ==> ParseInt(val) != Some(a.id))
             && (forall a :: a in akuns ==> !NameMatch(a, user, val)))
            ==> r == ByDisplayPrefix(akuns, user, val)
    ensures r.None? <==> && (forall a :: a in akuns && a.user == user ==> ParseInt(val) != Some(a.id))
                         && (forall a :: a in akuns ==> !NameMatch(a, user, val))
                         && (!Contains(val, " - ") || forall a :: a in akuns && a.user == user ==> a.kode != DisplayKode(val))
  {
    var byId := ById(akuns, user, val);
    if byId.Some? then byId
    else
      var byName := ByKodeOrNama(akuns, user, val);
      if byName.Some? then byName
      else ByDisplayPrefix(akuns, user, val)
  }

  /** With distinct keys, an owned account's key written out resolves to that account. */
  lemma ResolveOwnId(akuns: seq<Akun>, user: UserId, a: Akun)
    requires AkunIdsIncreasing(akuns)
    requires a in akuns && a.user == user
    ensures ResolveAkun(akuns, user, IntToString(a.id)) == Some(a)
  {
    ParseIntToString(a.id);
    var r := ResolveAkun(akuns, user, IntToString(a.id));
    var i :| 0 <= i < |akuns| && akuns[i] == a;
    var j :| 0 <= j < |akuns| && akuns[j] == r.value;
    assert i == j;
  }

  /** The text before the first " - " of `kode - nama`, when kode holds no whitespace, is kode. */
  lemma DisplayPrefix(a: Akun)
    requires forall i :: 0 <= i < |a.kode| ==> !IsSpace(a.kode[i])
    ensures Contains(AkunStr(a), " - ")
    ensures DisplayKode(AkunStr(a)) == a.kode
  {
    var s := AkunStr(a);
    assert OccursAt(s, " - ", |a.kode|);
    var p := IndexOf(s, " - ", 0).value;
    assert p == |a.kode| by {
      if p < |a.kode| {
        assert s[p] == a.kode[p];
        assert IsSpace(s[p]);
      }
    }
    assert s[..p] == a.kode;
    StripUnchanged(a.kode);
  }

  /**
   * The display string `kode - nama` of an owned account resolves to that
   * account, provided its kode holds no whitespace (so " - " first occurs
   * right after it) and no owned account is itself named or coded by the
   * whole display string.
   */
  lemma ResolveDisplayString(akuns: seq<Akun>, user: UserId, a: Akun)
    requires KodeUnique(akuns)
    requires a in akuns && a.user == user
    requires forall i :: 0 <= i < |a.kode| ==> !IsSpace(a.kode[i])
    requires forall b :: b in akuns && b.user == user ==>
               !EqualsIgnoreCase(b.kode, AkunStr(a)) && !EqualsIgnoreCase(b.nama, AkunStr(a))
    ensures ResolveAkun(akuns, user, AkunStr(a)) == Some(a)
  {
    var s := AkunStr(a);
    assert ParseInt(s) == None by {
      assert s[|a.kode|] == ' ' && s[|a.kode| + 2] == ' ';
    }
    assert ByKodeOrNama(akuns, user, s) == None;
    DisplayPrefix(a);
    assert ByDisplayPrefix(akuns, user, s) == WithKode(akuns, user, a.kode);
    OwnKode(akuns, user, a);
  }

  /** Under (user, kode) uniqueness an owned account is the only one of its user with its kode. */
  lemma OwnKode(akuns: seq<Akun>, user: UserId, a: Akun)
    requires KodeUnique(akuns)
    requires a in akuns && a.user == user
    ensures WithKode(akuns, user, a.kode) == Some(a)
  {
    var r := WithKode(akuns, user, a.kode);
    var i :| 0 <= i < |akuns| && akuns[i] == a;
    var j :| 0 <= j < |akuns| && akuns[j] == r.value;
    assert i == j;
  }
}

=== FILE: text.dfy ===
/**
 * The string operations the lookups and the number filters rely on:
 * ASCII case folding (the database's case-insensitive match), whitespace
 * stripping, substring search and character removal.
 */
module Text {
  import opened Wrappers

  /** ASCII lower-casing; other characters are left as they are. */
  function Lower(c: char): char
  {
    if 'A' <= c <= 'Z' then (c as int + 32) as char else c
  }

  /** Case-insensitive equality, as an `iexact` lookup compares. */
  predicate EqualsIgnoreCase(a: string, b: string)
  {
    |a| == |b| && forall i :: 0 <= i < |a| ==> Lower(a[i]) == Lower(b[i])
  }

  /**
   * The characters Python's str.isspace() accepts, which str.strip() with
   * no argument removes: the ASCII controls 9-13 and 28-31, the space, and
   * the Unicode separators NEL, NO-BREAK SPACE, OGHAM SPACE MARK, the
   * spaces 0x2000-0x200A, LINE and PARAGRAPH SEPARATOR, NARROW NO-BREAK
   * SPACE, MEDIUM MATHEMATICAL SPACE and IDEOGRAPHIC SPACE.
   */
  predicate IsSpace(c: char)
  {
    var n := c as int;
    || 9 <= n <= 13 || 28 <= n <= 32 || n == 0x85 || n == 0xA0 || n == 0x1680
    || 0x2000 <= n <= 0x200A || n == 0x2028 || n == 0x2029 || n == 0x202F || n == 0x205F || n == 0x3000
  }

  /** The position of the first non-space of s at or after i; |s| when there is none. */
  function SkipSpaces(s: string, i: nat): (j: nat)
    requires i <= |s|
    ensures i <= j <= |s| && (j < |s| ==> !IsSpace(s[j]))
    ensures forall k :: i <= k < j ==> IsSpace(s[k])
    decreases |s| - i
  {
    if i < |s| && IsSpace(s[i]) then SkipSpaces(s, i + 1) else i
  }

  /** Where s[..j] ends once its trailing whitespace is cut, going no lower than i. */
  function TrimEnd(s: string, i: nat, j: nat): (e: nat)
    requires i <= j <= |s|
    ensures i <= e <= j && (e > i ==> !IsSpace(s[e - 1]))
    ensures forall k :: e <= k < j ==> IsSpace(s[k])
    decreases j
  {
    if j > i && IsSpace(s[j - 1]) then TrimEnd(s, i, j - 1) else j
  }

  /** r is the infix of s at position i, and everything around it in s is whitespace. */
  predicate TrimmedAt(s: string, r: string, i: nat)
  {
    && i + |r| <= |s| && r == s[i..i + |r|]
    && (forall k :: 0 <= k < i ==> IsSpace(s[k]))
    && (forall k :: i + |r| <= k < |s| ==> IsSpace(s[k]))
  }

  /**
   * str.strip(): the infix left once the whitespace at both ends is cut
   * off. It starts and ends with a non-space, and it is empty exactly when
   * s is blank.
   */
  function Strip(s: string): (r: string)
    ensures |r| > 0 ==> !IsSpace(r[0]) && !IsSpace(r[|r| - 1])
    ensures exists i: nat :: TrimmedAt(s, r, i)
    ensures r == [] <==> forall k :: 0 <= k < |s| ==> IsSpace(s[k])
  {
    var a := SkipSpaces(s, 0);
    var b := TrimEnd(s, a, |s|);
    assert TrimmedAt(s, s[a..b], a);
    s[a..b]
  }

  /** A NO-BREAK SPACE alone is blank, and an IDEOGRAPHIC SPACE in front of a word is cut off. */
  lemma UnicodeSpacesStripped()
    ensures Strip([0xA0 as char]) == []
    ensures Strip([0x3000 as char] + "Gaji") == "Gaji"
  {
    var s := [0x3000 as char] + "Gaji";
    assert SkipSpaces(s, 0) == 1 && TrimEnd(s, 1, 5) == 5;
    assert s[1..5] == "Gaji";
  }

  /** A string with no whitespace at either end is its own strip. */
  lemma StripUnchanged(s: string)
    requires |s| > 0 ==> !IsSpace(s[0]) && !IsSpace(s[|s| - 1])
    ensures Strip(s) == s
  {
  }

  /** Whether sep occurs in s at position p. */
  predicate OccursAt(s: string, sep: string, p: nat)
  {
    p + |sep| <= |s| && s[p..p + |sep|] == sep
  }

  /** The first position at or after `from` where sep occurs in s. */
  function IndexOf(s: string, sep: string, from: nat): (r: Option<nat>)
    ensures r.Some? ==> from <= r.value && OccursAt(s, sep, r.value)
    ensures r.Some? ==> forall p :: from <= p < r.value ==> !OccursAt(s, sep, p)
    ensures r.None? ==> forall p :: from <= p ==> !OccursAt(s, sep, p)
    decreases |s| - from
  {
    if from + |sep| > |s| then None
    else if s[from..from + |sep|] == sep then Some(from)
    else IndexOf(s, sep, from + 1)
  }

  /** Python's `sep in s`. */
  predicate Contains(s: string, sep: string)
  {
    IndexOf(s, sep, 0).Some?
  }

  /** Python's `s.split(sep)[0]`: the text before the first occurrence of sep. */
  function BeforeFirst(s: string, sep: string): string
  {
    match IndexOf(s, sep, 0)
    case None => s
    case Some(i) => s[..i]
  }

  /**
   * Python's `s.replace(c, '')` for a single character c. No c is left;
   * that every other character is kept, in order, is stated by the lemmas
   * below.
   */
  function RemoveChar(s: string, c: char): (r: string)
    ensures forall i :: 0 <= i < |r| ==> r[i] != c
  {
    if s == [] then [] else (if s[0] == c then [] else [s[0]]) + RemoveChar(s[1..], c)
  }

  /** Every character other than c is kept as often as it occurs; c is kept nowhere. */
  lemma {:induction false} RemoveCharCounts(s: string, c: char)
    ensures multiset(RemoveChar(s, c)) == multiset(s)[c := 0]
  {
    if s != [] {
      RemoveCharCounts(s[1..], c);
      assert s == [s[0]] + s[1..];
    }
  }

  /** Removal goes character by character, so what is kept stays in order. */
  lemma {:induction false} RemoveCharAppend(a: string, b: string, c: char)
    ensures RemoveChar(a + b, c) == RemoveChar(a, c) + RemoveChar(b, c)
  {
    if a != [] {
      assert (a + b)[1..] == a[1..] + b;
      RemoveCharAppend(a[1..], b, c);
    } else {
      assert a + b == b;
    }
  }

  /** Removing a character that does not occur changes nothing. */
  lemma {:induction false} RemoveAbsentChar(s: string, c: char)
    requires forall i :: 0 <= i < |s| ==> s[i] != c
    ensures RemoveChar(s, c) == s
  {
    if s != [] {
      RemoveAbsentChar(s[1..], c);
    }
  }
}

=== FILE: wrappers.dfy ===
/** The optional value used wherever the source returns None or may fail. */
module Wrappers {
  datatype Option<+T> = None | Some(value: T)
}
